=== FILE: README.md ===
# DynamicSearch — a Dafny model of the search field, session list and category selector

DynamicSearch is a small SwiftUI desktop app for tracking work sessions. A
title field with an inline dropdown suggests recent task titles, and typing
`@` switches the dropdown to categories. A category selector sets the
category of the next session. The home screen keeps the session list, and
the arrow keys and Return tick sessions off.

The repository holds two drifting copies of the title field and two of the
selector. The copies cannot be compiled together. This project models each
copy as its own Dafny module. Every key handler, tap and `onChange`
reaction becomes a pure function over an explicit state record:

| module | file | what it is |
|---|---|---|
| `Text` | text.dfy | ASCII lower-casing, substring search, `components(separatedBy:)` as `Components`, `split(separator:)` as `Split` |
| `Options`, `Items` | items.dfy | `Candidate` (a suggestion or category row), `Session`, `FocusType`, callbacks as `Action` values, the case-insensitive title filter |
| `MentionSearch` | mention_search.dfy | `Home/DynamicSearchView.swift`: three modes, a wrapping highlight, and the field showing the highlighted row |
| `ClampedSearch` | clamped_search.dfy | `Home/Views/DynamicSearchView.swift`: two modes, a clamped highlight, and every edit clearing the highlight |
| `Home` | home.dfy | `HomeView.swift`: `saveSession`, `categoryDidSelect`, session-list keys |
| `CategoryDropDown` | category_selector.dfy | `Home/CategorySelectorView.swift`: starts at row 0, and focus follows the dropdown |
| `CategoryList` | category_selector.dfy | `Home/Views/CategorySelectorView.swift`: starts at row -1, with its own focus flag |
| `Screen` | screen.dfy | `HomeView.swift` wiring: callbacks from the children reach `saveSession` and `categoryDidSelect` |

Modelling choices:

- A callback (`titleDidSave`, `categoryDidSelect`, `itemDidSelect`,
  `suggestionDidSelect`, `didSave`) is returned as an `Action` value. A
  handler that fires callbacks returns `Step(next, emitted)`.
- SwiftUI runs `onChange(of: text)` after a handler assigns the text. Here
  that reaction is the separate function `OnTextChanged`, and the host
  applies it after the handler. The arrow-key round trips of
  `MentionSearch` are stated with that step between the two keys.
- The `isKeyboardTypes` flag is explicit state. `MentionSearch.KeyTyped`
  sets it, standing in for a letter or delete key press.
- Focus is an explicit `Option<FocusType>` field.
- Several handlers index a list with a cursor that can be -1 or stale, which
  would trap at run time. Each such read is a `requires` clause rather than
  a no-op. Examples: Return in a category mode with nothing
  highlighted; Return in `CategoryList` before any arrow key; a commit in
  `ClampedSearch`'s category mode right after an edit.
- The ids `Int.random(in: 100...100000)` would draw are parameters. Their
  range is a `requires` clause.
- `Suggestion` and `Category` are the same record `Candidate(id, title)`
  because the colour is not modelled. So the conversion
  `Suggestion(id:title:color:)` that the views apply to categories is the
  identity.

How the code behaves at its edges:

- The title field fires `titleDidSave` even for an empty text, and
  `saveSession` refuses it: it refuses an empty title, a title starting
  with `@`, and a save with no category picked
  (`Screen.EmptyCommitSavesNothing`).
- An edit does not always leave nothing highlighted. In `ClampedSearch` the
  highlight always ends at -1, because the `onChange` closure overrides the
  0 set inside `textFieldOnChanged`. In `MentionSearch` only typed edits in
  recent-input or category mode reset it; edits in mixed mode and edits
  made by the arrows keep it (`TypingMixedSplitsParts`).
- A click on a row in mixed ("category on recent input") mode does nothing
  in `MentionSearch.ItemDidSelect`. Only the tap's highlight assignment
  survives.

## Model

| member | source | states |
|---|---|---|
| `Text.LowerStr` | DynamicSearch/Modules/Home/DynamicSearchView.swift:328 | `lowercased()` keeps the length and maps each character through ASCII lower-casing |
| `Text.ContainsIffOccurs` | DynamicSearch/Modules/Home/DynamicSearchView.swift:328 | the `contains` search holds exactly when the needle occurs at some position of the text |
| `Text.RemoveAll` | DynamicSearch/Modules/Home/DynamicSearchView.swift:82 | `filter { $0 != "@" }` leaves no `@`, keeps every other character as often as it occurs (multiset) and in its order (subsequence), and changes a text without `@` not at all |
| `Text.Components` | DynamicSearch/Modules/Home/DynamicSearchView.swift:95-101 | `components(separatedBy: "@")` gives at least one piece and no piece holds `@`; there is exactly one piece iff the text has no `@`; the first piece is empty iff the text is empty or starts with `@` |
| `Text.JoinComponents` | DynamicSearch/Modules/Home/DynamicSearchView.swift:95-101 | re-joining the pieces with `@` gives the original text |
| `Text.ComponentsJoin` | DynamicSearch/Modules/Home/DynamicSearchView.swift:95-101 | cutting a join of `@`-free pieces gives back exactly those pieces, empty ones included |
| `Text.FirstComponent` | DynamicSearch/Modules/Home/DynamicSearchView.swift:95-97 | `.first` is the prefix of the text up to the first `@`, or all of it |
| `Text.LastComponent` | DynamicSearch/Modules/Home/DynamicSearchView.swift:99-101 | `.last` is the suffix of the text after the last `@`, or all of it |
| `Text.Split` | DynamicSearch/Modules/Home/Views/DynamicSearchView.swift:175 | `split(separator: "@")` gives exactly the non-empty pieces of `components(separatedBy: "@")`, each as often as it occurs there and in the same order; none is empty or holds `@` |
| `Text.SplitConcat` | DynamicSearch/Modules/Home/Views/DynamicSearchView.swift:175 | gluing the split pieces together gives the text with every `@` removed, so dropping empty pieces loses nothing else |
| `Items.FilterByTitle` | DynamicSearch/Modules/Home/DynamicSearchView.swift:342 | the filter keeps each matching entry as many times as the source holds it, drops every other entry, and keeps source order (subsequence) |
| `Items.FilterMembership` | DynamicSearch/Modules/Home/DynamicSearchView.swift:342 | an entry is in the result iff it is in the source and its lowercased title contains the lowercased query |
| `Items.FilterEmptyQuery` | DynamicSearch/Modules/Home/DynamicSearchView.swift:335-340 | an empty query yields the whole source list in order, which is why the guard branch agrees with the filter |
| `Items.FilterIgnoresQueryCase` | DynamicSearch/Modules/Home/DynamicSearchView.swift:342 | filtering by a query or by its lower-case form gives the same list |
| `Items.MatchesIgnoresCase` | DynamicSearch/Modules/Home/DynamicSearchView.swift:328 | matching is unchanged by lower-casing the title or the query first |
| `Items.FilterExample` | DynamicSearch/Modules/Home/HomeView.swift:37-38 | the query "ui" keeps "Slicing UI" and drops "Meeting" |
| `MentionSearch.Appear` | DynamicSearch/Modules/Home/DynamicSearchView.swift:28-36 | the field starts with nothing highlighted, dropdown hidden, recent-input mode, and every title listed |
| `MentionSearch.Classify` | DynamicSearch/Modules/Home/DynamicSearchView.swift:79-80 | the mode depends on the text alone: recent input iff the text has one `@`-piece, category iff the first piece is empty and there are more, mixed iff the first piece is non-empty and there are more |
| `MentionSearch.TitlePartIsPrefixBeforeMention` | DynamicSearch/Modules/Home/DynamicSearchView.swift:95-97 | the title part is an `@`-free prefix that ends at the first `@` |
| `MentionSearch.CategoryPartIsSuffixAfterMention` | DynamicSearch/Modules/Home/DynamicSearchView.swift:99-101 | the category part is an `@`-free suffix that starts after the last `@` |
| `MentionSearch.FilterCategory` | DynamicSearch/Modules/Home/DynamicSearchView.swift:324-331 | the result is the categories matching the query in their original order and multiplicity (a category is listed iff it is one of them and matches); the empty-query branch agrees with the filter |
| `MentionSearch.FilterRecentInput` | DynamicSearch/Modules/Home/DynamicSearchView.swift:333-344 | outside recent-input mode nothing changes; inside it the list becomes the titles matching the query, including the empty-query guard |
| `MentionSearch.OnTextChanged` | DynamicSearch/Modules/Home/DynamicSearchView.swift:78-116 | the field holds the new text, the mode is `Classify` of it, and focus and dropdown visibility are untouched |
| `MentionSearch.KeyTyped` | DynamicSearch/Modules/Home/DynamicSearchView.swift:117-120 | a letter press (lines 117-120) or a delete press (lines 223-228) sets the typing flag and nothing else |
| `MentionSearch.TypingTitleFilters` | DynamicSearch/Modules/Home/DynamicSearchView.swift:84-87 | typing a text without `@` clears the highlight, records the text as the title input, and lists exactly the titles containing it, in order |
| `MentionSearch.TypingMentionFiltersCategories` | DynamicSearch/Modules/Home/DynamicSearchView.swift:89-92 | typing a text that starts with `@` clears the highlight and lists the categories matching the text with `@` removed |
| `MentionSearch.TypingMixedSplitsParts` | DynamicSearch/Modules/Home/DynamicSearchView.swift:94-102 | typing a mixed text stores the part before the first `@` and the part after the last `@`, keeps the highlight, and refilters categories when nothing is highlighted or the category part is empty |
| `MentionSearch.TypingIdempotent` | DynamicSearch/Modules/Home/DynamicSearchView.swift:78-116 | delivering the same typed text twice gives the same state as delivering it once |
| `MentionSearch.ComposeRoundTrip` | DynamicSearch/Modules/Home/DynamicSearchView.swift:134-151 | re-reading a rebuilt text gives back its mode, its title part and the part after `@` |
| `MentionSearch.Down` | DynamicSearch/Modules/Home/DynamicSearchView.swift:121-154 | Down moves to the next row below count-1 and wraps to -1 otherwise; the cursor stays in [-1, count-1]; the text shows the new highlight; lists, mode and inputs are unchanged; the typing flag is cleared except in mixed mode, where it is kept |
| `MentionSearch.Up` | DynamicSearch/Modules/Home/DynamicSearchView.swift:155-186 | Up moves to the previous row above -1 and wraps to count-1 from -1; the cursor stays in [-1, count-1]; the text shows the new highlight; lists, mode and inputs are unchanged; the typing flag is cleared except in mixed mode, where it is kept |
| `MentionSearch.EchoIsQuiet` | DynamicSearch/Modules/Home/DynamicSearchView.swift:78-116 | when the list is the one the typed input selects, the typing flag is clear and the field shows the highlight, the `onChange(of: text)` an arrow causes changes nothing |
| `MentionSearch.DownThenUp` | DynamicSearch/Modules/Home/DynamicSearchView.swift:121-186 | with the text change between the keys, Up after Down returns to the same row and the same text, whenever the arrow clears the typing flag (recent-input and category mode always) |
| `MentionSearch.UpThenDown` | DynamicSearch/Modules/Home/DynamicSearchView.swift:121-186 | with the text change between the keys, Down after Up returns to the same row and the same text, under the same condition |
| `MentionSearch.UpAfterDownRestoresInput` | DynamicSearch/Modules/Home/DynamicSearchView.swift:134-141 | on a list that matches the typed input (`Coherent`) and when the arrow clears the typing flag (`!ArrowTyping`, which leaves out mixed mode after typing): from -1, Down, its text change, then Up return to -1 and show the typed input rebuilt as `title+"@"+category`, `"@"+category` or `title`. Mixed mode after typing is `MixedArrowsShowRowNotQuery` |
| `MentionSearch.MixedArrowsShowRowNotQuery` | DynamicSearch/Modules/Home/DynamicSearchView.swift:94-101 | as written, in mixed mode after typing with any non-empty list of non-empty `@`-free rows, from -1 Down's text change records row 0 as the category query, and Up returns the cursor to -1 but shows `title+"@"+row` |
| `MentionSearch.MixedArrowsExample` | DynamicSearch/Modules/Home/DynamicSearchView.swift:121-174 | typed "ab@wo" with the row "Work": Down, its text change, then Up leave "ab@Work" where the typed text was "ab@wo" |
| `MentionSearch.CorrectedDown` | DynamicSearch/Modules/Home/DynamicSearchView.swift:121-124 | Down that clears the typing flag in every mode; otherwise the same as Down |
| `MentionSearch.CorrectedUp` | DynamicSearch/Modules/Home/DynamicSearchView.swift:155-158 | Up that clears the typing flag in every mode; otherwise the same as Up |
| `MentionSearch.CorrectedDownThenUp` | DynamicSearch/Modules/Home/DynamicSearchView.swift:134-141 | with the corrected arrows, Up after Down restores the row and the text in every mode, mixed mode included |
| `MentionSearch.CorrectedUpThenDown` | DynamicSearch/Modules/Home/DynamicSearchView.swift:167-174 | with the corrected arrows, Down after Up restores the row and the text in every mode |
| `MentionSearch.DownCycles` | DynamicSearch/Modules/Home/DynamicSearchView.swift:126-130 | from -1, k bare Down handlers (no text change between them) highlight row k-1, and handler count+1 returns to -1 |
| `MentionSearch.Presses` | DynamicSearch/Modules/Home/DynamicSearchView.swift:121-154 | with the text change after every press, on a list that matches the typed input (`Coherent`) and when the arrows clear the typing flag (`!ArrowTyping`), k presses give the same state as k bare Down handlers, and the list keeps matching |
| `MentionSearch.PressesCycle` | DynamicSearch/Modules/Home/DynamicSearchView.swift:126-130 | under the conditions of `Presses` (`Coherent`, `!ArrowTyping`): from -1, with the text change after every press, k presses highlight row k-1, and press count+1 returns to -1. Mixed mode after typing is `MixedPressesCycle` |
| `MentionSearch.TypingMixedIsTypedMixed` | DynamicSearch/Modules/Home/DynamicSearchView.swift:94-101 | typing "title@query" with nothing highlighted, when every category title is non-empty and `@`-free, stores the title and query parts, keeps -1 and leaves the typed-mixed state the press cycle starts from |
| `MentionSearch.MixedPressEcho` | DynamicSearch/Modules/Home/DynamicSearchView.swift:78-116 | in mixed mode after typing, a Down onto a row keeps the flag, so its text change stores that row as the category query; the list, the title input and the flag are kept and the cursor moves one row down |
| `MentionSearch.MixedPresses` | DynamicSearch/Modules/Home/DynamicSearchView.swift:121-154 | in mixed mode after typing, k presses with their text changes move the cursor k rows down and keep the list, the title input and the typed-mixed state |
| `MentionSearch.MixedPressesCycle` | DynamicSearch/Modules/Home/DynamicSearchView.swift:126-130 | in mixed mode after typing, from -1, press k highlights row k-1 and shows it as the category query, and press count+1 returns to -1 |
| `MentionSearch.Return` | DynamicSearch/Modules/Home/DynamicSearchView.swift:190-218 | recent input saves the current text and clears text, both inputs and the cursor; either category mode needs a highlighted row and reports its id; mixed mode keeps the title part as text and returns to recent input; recent input stays in recent input; the typing flag, focus, dropdown visibility and list are unchanged |
| `MentionSearch.MixedCommitKeepsTitlePart` | DynamicSearch/Modules/Home/DynamicSearchView.swift:191-197 | after arrowing to a category in mixed mode, Return leaves exactly the title part of the shown text and reports that category |
| `MentionSearch.Escape` | DynamicSearch/Modules/Home/DynamicSearchView.swift:219-222 | Escape hides the dropdown and changes nothing else |
| `MentionSearch.FocusChanged` | DynamicSearch/Modules/Home/DynamicSearchView.swift:75-77 | a focus change shows the dropdown iff the title field gained focus |
| `MentionSearch.KeepTitle` | DynamicSearch/Modules/Home/DynamicSearchView.swift:313-317 | the new text is empty or ends in a space, holds no `@`, and is the part before the first `@`, possibly with one added space, which is added exactly when that part does not already end in a space; it is empty iff that part is |
| `MentionSearch.ItemDidSelect` | DynamicSearch/Modules/Home/DynamicSearchView.swift:300-322 | recent input saves the highlighted title, clears the text and sends focus to the sessions; category mode reports the id, keeps the title part and returns to recent input; mixed mode does nothing |
| `MentionSearch.TapItem` | DynamicSearch/Modules/Home/DynamicSearchView.swift:260-263 | clicking row i saves or reports row i |
| `ClampedSearch.Initial` | DynamicSearch/Modules/Home/Views/DynamicSearchView.swift:25-36 | the field starts with nothing highlighted, suggestions hidden, default mode |
| `ClampedSearch.Classify` | DynamicSearch/Modules/Home/Views/DynamicSearchView.swift:170 | category mode iff the text has more than one `@`-piece, i.e. contains `@` |
| `ClampedSearch.TextFieldOnChanged` | DynamicSearch/Modules/Home/Views/DynamicSearchView.swift:169-198 | the mode follows the text; category mode lists the category rows; default mode lists the matching titles in order, all of them for an empty text |
| `ClampedSearch.OnTextChanged` | DynamicSearch/Modules/Home/Views/DynamicSearchView.swift:84-87 | after any edit the field holds the new text and the highlight is -1, overriding the 0 set inside the handler |
| `ClampedSearch.VisibleRowsAfterEdit` | DynamicSearch/Modules/Home/Views/DynamicSearchView.swift:37-43 | the visible list is every title for an empty text, the matching titles for a plain text, and the category rows for a text with `@` |
| `ClampedSearch.LeadingMentionListsAll` | DynamicSearch/Modules/Home/Views/DynamicSearchView.swift:172-183 | because split drops empty pieces, `"@"+query` lists every category |
| `ClampedSearch.TitleMentionFiltersByQuery` | DynamicSearch/Modules/Home/Views/DynamicSearchView.swift:175-177 | `title+"@"+query` lists the categories matching the query (the second non-empty piece) |
| `ClampedSearch.Down` | DynamicSearch/Modules/Home/Views/DynamicSearchView.swift:125-130 | Down adds one while the cursor is below count-1 and otherwise changes nothing; nothing but the cursor changes |
| `ClampedSearch.Up` | DynamicSearch/Modules/Home/Views/DynamicSearchView.swift:131-136 | Up subtracts one while the cursor is above 0 and otherwise changes nothing, so -1 stays -1 |
| `ClampedSearch.ArrowsUndoInside` | DynamicSearch/Modules/Home/Views/DynamicSearchView.swift:125-136 | away from the ends of the list, Up undoes Down and Down undoes Up |
| `ClampedSearch.Escape` | DynamicSearch/Modules/Home/Views/DynamicSearchView.swift:141-144 | Escape hides the suggestions and changes nothing else |
| `ClampedSearch.FocusChanged` | DynamicSearch/Modules/Home/Views/DynamicSearchView.swift:63-68 | a focus change shows the suggestions and changes nothing else |
| `ClampedSearch.ItemDidSelect` | DynamicSearch/Modules/Home/Views/DynamicSearchView.swift:149-167 | category mode reports the highlighted id and keeps the `@`-free prefix before the first `@`; default mode reports `originalSuggestion[index].id` only for an empty text with an index in range, always reports the save last, toggles visibility and leaves the text empty; neither branch changes the mode, the list or the highlight |
| `ClampedSearch.Return` | DynamicSearch/Modules/Home/Views/DynamicSearchView.swift:137-140 | Return is the same commit as a click on the highlighted row, whenever that row is visible |
| `ClampedSearch.TapItem` | DynamicSearch/Modules/Home/Views/DynamicSearchView.swift:107-110 | clicking row i reports row i (a category, or a title when the field is empty) |
| `Home.Initial` | DynamicSearch/Modules/Home/HomeView.swift:25-62 | the screen starts with five sessions, the cursor on the first, and no category picked (id -1) |
| `Home.FirstWithId` | DynamicSearch/Modules/Home/HomeView.swift:91 | `first(where:)` finds the earliest category with the id, or reports that none has it |
| `Home.CategoryDidSelect` | DynamicSearch/Modules/Home/HomeView.swift:90-94 | a known id makes a category with that id the selected one; an unknown id leaves the state unchanged; nothing but the selection changes |
| `Home.CategoryDidSelectPicksFirst` | DynamicSearch/Modules/Home/HomeView.swift:91-93 | the selected category is the first one carrying the id |
| `Home.FirstMatch` | DynamicSearch/Modules/Home/HomeView.swift:107 | `firstIndex(where:)` finds the earliest suggestion whose lowercased title contains the lowercased title, or reports none |
| `Home.MoveToFront` | DynamicSearch/Modules/Home/HomeView.swift:108-110 | remove-then-insert-at-0 is a permutation with the moved entry first, earlier entries shifted by one, later ones in place |
| `Home.SaveSession` | DynamicSearch/Modules/Home/HomeView.swift:96-114 | a rejected title (empty, starting with `@`, or no category) changes only the focus; an accepted one adds an open session with the title and the selected category id at index 0, sets the cursor to 0 and promotes the title |
| `Home.SaveShiftsSessions` | DynamicSearch/Modules/Home/HomeView.swift:103-105 | an accepted save grows the sessions by one and every old session moves down one place |
| `Home.SavePromotesMatch` | DynamicSearch/Modules/Home/HomeView.swift:107-110 | when some suggestion contains the title, the suggestions are a permutation of the old ones with the first match in front |
| `Home.SaveAddsNewSuggestion` | DynamicSearch/Modules/Home/HomeView.swift:111-113 | when none contains it, a new suggestion with the title and the fresh id is prepended and the rest is unchanged |
| `Home.InitialRejectsSave` | DynamicSearch/Modules/Home/HomeView.swift:98-101 | before a category is picked, no title is saved |
| `Home.SessionDown` | DynamicSearch/Modules/Home/HomeView.swift:156-161 | Down adds one while the cursor is above the last session and otherwise changes nothing; a valid cursor stays valid |
| `Home.SessionUp` | DynamicSearch/Modules/Home/HomeView.swift:162-167 | Up subtracts one while the cursor is above 0 and otherwise changes nothing; a valid cursor stays valid |
| `Home.TapSession` | DynamicSearch/Modules/Home/HomeView.swift:139-141 | a tap puts the cursor on the tapped session |
| `Home.ToggleDone` | DynamicSearch/Modules/Home/HomeView.swift:127-129 | only the `isDone` flag of that session flips; every other session and field is unchanged |
| `Home.SessionReturn` | DynamicSearch/Modules/Home/HomeView.swift:168-171 | Return flips `isDone` of the session under the cursor, keeping its id, title and category, and changes nothing else |
| `Home.ToggleTwiceRestores` | DynamicSearch/Modules/Home/HomeView.swift:168-171 | flipping the same session twice restores the state |
| `Home.EventKeepsCursorValid` | DynamicSearch/Modules/Home/HomeView.swift:156-171 | every key, tap, save and category pick keeps the cursor on a session, so Return never reads out of range; sessions never shrink |
| `Home.InitialCursorValid` | DynamicSearch/Modules/Home/HomeView.swift:50-61 | the first screen has its cursor on a session |
| `CategoryDropDown.Initial` | DynamicSearch/Modules/Home/CategorySelectorView.swift:38-39 | the selector starts at row 0 with the dropdown hidden |
| `CategoryDropDown.SetShowDropDown` | DynamicSearch/Modules/Home/CategorySelectorView.swift:59-61 | changing the open flag moves focus to the dropdown when opened and to the sessions when closed; assigning the same value changes nothing |
| `CategoryDropDown.TapHeader` | DynamicSearch/Modules/Home/CategorySelectorView.swift:56-58 | a header tap flips the dropdown, focus follows, and the highlight stays |
| `CategoryDropDown.Escape` | DynamicSearch/Modules/Home/CategorySelectorView.swift:121-124 | Escape hides the dropdown and keeps the highlight |
| `CategoryDropDown.Down` | DynamicSearch/Modules/Home/CategorySelectorView.swift:105-110 | Down adds one while the index is below count-1 and otherwise changes nothing; an in-range index stays in range |
| `CategoryDropDown.Up` | DynamicSearch/Modules/Home/CategorySelectorView.swift:111-116 | Up subtracts one while the index is above 0 and otherwise changes nothing |
| `CategoryDropDown.ItemDidSelect` | DynamicSearch/Modules/Home/CategorySelectorView.swift:70-78 | selecting sets the index to the tapped row (or keeps the highlight), reports `categories[index].id`, and toggles the dropdown exactly once, with focus following |
| `CategoryDropDown.EventKeepsValid` | DynamicSearch/Modules/Home/CategorySelectorView.swift:56-124 | every tap and key keeps the index in [0, count-1] and the focus in step with the dropdown |
| `CategoryDropDown.InitialValid` | DynamicSearch/Modules/Home/CategorySelectorView.swift:38-39 | with at least one category, the fresh selector's index is in range |
| `CategoryList.TapHeader` | DynamicSearch/Modules/Home/Views/CategorySelectorView.swift:57-60 | a header tap flips the list and the focus flag and keeps the highlight |
| `CategoryList.Down` | DynamicSearch/Modules/Home/Views/CategorySelectorView.swift:84-88 | Down increments only while below count-1 |
| `CategoryList.Up` | DynamicSearch/Modules/Home/Views/CategorySelectorView.swift:89-94 | Up decrements only while above 0, so -1 stays -1 |
| `CategoryList.Escape` | DynamicSearch/Modules/Home/Views/CategorySelectorView.swift:99-102 | Escape hides the list and leaves the index unchanged |
| `CategoryList.SelectIndex` | DynamicSearch/Modules/Home/Views/CategorySelectorView.swift:116-119 | selecting row i sets the index to i, reports `categories[i].id` and toggles visibility |
| `CategoryList.Return` | DynamicSearch/Modules/Home/Views/CategorySelectorView.swift:121-122 | Return needs 0 ≤ index < count, reports that row's id and toggles visibility |
| `CategoryList.InitialCannotReturn` | DynamicSearch/Modules/Home/Views/CategorySelectorView.swift:37-38 | the initial index -1 violates Return's requirement |
| `CategoryList.DownFromInitial` | DynamicSearch/Modules/Home/Views/CategorySelectorView.swift:84-88 | from the initial state, k presses of Down highlight row min(k, count)-1, so one press makes Return safe when there is a category |
| `CategoryList.HandlersKeepIndexInRange` | DynamicSearch/Modules/Home/Views/CategorySelectorView.swift:83-122 | every handler keeps the index in [-1, count-1] |
| `Screen.Deliver` | DynamicSearch/Modules/Home/HomeView.swift:66-78 | passing the children's callbacks to the home screen never drops a session or changes the categories |
| `Screen.EmptyCommitSavesNothing` | DynamicSearch/Modules/Home/HomeView.swift:98-101 | Return on an empty title field adds no session and leaves the suggestions alone |
| `Screen.CommitSavesTypedTitle` | DynamicSearch/Modules/Home/HomeView.swift:72-75 | Return on a typed title, with a category picked, puts that title on top as an open session |
| `Screen.MentionCommitPicksCategory` | DynamicSearch/Modules/Home/HomeView.swift:76-78 | Return on a highlighted category row selects that category on the home screen and adds no session |

## Left out

- View rendering: `body`, `CategoryView`, overlays, padding, shadows and colours. The `color` field of suggestions and categories is dropped.
- `DynamicSearch/System/DynamicSearchApp.swift`: it only starts the window.
- The SwiftUI focus machinery and key dispatch. Focus is a field. Each key is a function the host calls. The model does not decide which view receives a key. Key handlers attached to an overlay act only while it is shown, and the model does not check that.
- The clear buttons (`xmark.circle.fill`) are not separate members. The one in `Home/DynamicSearchView.swift` (lines 231-236) only assigns an empty text, which is `MentionSearch.OnTextChanged` with `""`. The one in `Home/Views/DynamicSearchView.swift` (lines 71-78) also focuses the field, so it is `ClampedSearch.OnTextChanged` with `""` followed by `ClampedSearch.FocusChanged` when the focus actually changes.
- Unicode `lowercased()`: lower-casing is ASCII-only, and strings are sequences of characters rather than grapheme clusters. So Swift's `text.count == 1` is `|text| == 1`.
- `Int.random`: the fresh ids are parameters restricted to 100...100000.
- The `isSelected` highlighting in each `ForEach` is rendering only.
- `MentionSearch.OnTextChanged`: its contract states only the mode and the text. The filtering outcomes are the lemmas `TypingTitleFilters`, `TypingMentionFiltersCategories` and `TypingMixedSplitsParts`, which need the typing flag set. An edit made while the flag is clear is covered for the text an arrow key shows (`EchoIsQuiet`); the text assignment by Return is modelled by the function but has no lemma of its own.
- `MentionSearch.DownThenUp`, `MentionSearch.UpThenDown`: stated for states whose list is the one the typed input selects (`Coherent`), with no `@` in the listed titles in recent-input mode. When the list is stale, for example after a highlighted row was edited, the text change an arrow causes may refilter the list, and no round trip is claimed.
- `MentionSearch.DownCycles`: composes the Down handlers without the text change between presses. `MentionSearch.PressesCycle` states the cycle with that step for a list that matches the typed input when the arrows clear the typing flag, and `MentionSearch.MixedPressesCycle` for mixed mode after typing. On a stale list, one left in recent-input mode after a mixed commit made without typing, the first press's text change refilters the list and the wrap comes earlier. No cycle is claimed for that case.
- Changes of the host's lists: `Config` is what the host passes on each call, and the home screen's suggestions change after every accepted save (`Home.SaveSession` moves a match to the front or prepends the new title). The title field keeps its `filteredSuggestions` across such a change, so after a save that list can be out of step with the new suggestions. `Coherent` does not cover that state, and no lemma relates the field's list to the suggestions before and after a save.
- `MentionSearch.DownCycles` and `MentionSearch.MixedCommitKeepsTitlePart` use the arrows as written. `CorrectedDown` and `CorrectedUp` differ from them only in the typing flag, which those lemmas do not read.

## Findings

| source | as written | input that shows it | evidently intended | confidence | as-written member | corrected member |
|---|---|---|---|---|---|---|
| DynamicSearch/Modules/Home/DynamicSearchView.swift:121-124 | the arrows clear `isKeyboardTypes` only in category and recent-input mode; in mixed mode the flag stays set, so the `onChange(of: text)` the arrow causes (lines 94-101) stores the highlighted row as `categoryUserInput`, and Up back to -1 (lines 167-169) rebuilds the text from that row | typed "ab@wo" with the category "Work" listed: Down shows "ab@Work", Up shows "ab@Work" again instead of "ab@wo" | Up back to -1 shows what was typed, as lines 134-141 and 167-174 rebuild it from the typed inputs; the arrows clear the flag in every mode | not executed; medium | `MentionSearch.MixedArrowsExample` | `MentionSearch.CorrectedDownThenUp` |

=== FILE: category_selector.dfy ===
/**
 The category selector of `Home/CategorySelectorView.swift`: a header that
 opens a dropdown of categories, a highlight that the arrows move within
 the list, and a commit that reports the category id. Opening and closing
 the dropdown moves keyboard focus between the dropdown and the session
 list.
 */
module CategoryDropDown {
  import opened Options
  import opened Items

  datatype State = State(selectedIndex: int, showDropDown: bool, focus: Option<FocusType>)

  /** A fresh selector: first row highlighted, dropdown closed; focus is owned by the host. */
  function Initial(focus: Option<FocusType>): (s: State)
    ensures s.selectedIndex == 0 && !s.showDropDown
  {
    State(0, false, focus)
  }

  /** Focus sits on the dropdown while it is open and on the session list while it is closed. */
  predicate FocusFollows(s: State)
  {
    s.focus == Some(if s.showDropDown then CategoryField else SessionList)
  }

  /**
   Assigning the open flag; `onChange(of: showDropDown)` moves the focus,
   and it fires only when the flag actually changes.
   */
  function SetShowDropDown(s: State, show: bool): (r: State)
    ensures r.showDropDown == show && r.selectedIndex == s.selectedIndex
    ensures show != s.showDropDown ==> FocusFollows(r)
    ensures show == s.showDropDown ==> r == s
  {
    if show == s.showDropDown then s
    else s.(showDropDown := show, focus := Some(if show then CategoryField else SessionList))
  }

  /** A tap on the header opens or closes the dropdown. */
  function TapHeader(s: State): (r: State)
    ensures r.showDropDown == !s.showDropDown && FocusFollows(r)
    ensures r.selectedIndex == s.selectedIndex
  {
    SetShowDropDown(s, !s.showDropDown)
  }

  /** Escape closes the dropdown and keeps the highlight. */
  function Escape(s: State): (r: State)
    ensures !r.showDropDown && r.selectedIndex == s.selectedIndex
    ensures FocusFollows(s) ==> FocusFollows(r)
  {
    SetShowDropDown(s, false)
  }

  /** Down arrow: next row, never past the last. */
  function Down(categories: seq<Category>, s: State): (r: State)
    ensures s.selectedIndex < |categories| - 1 ==> r.selectedIndex == s.selectedIndex + 1
    ensures s.selectedIndex >= |categories| - 1 ==> r == s
    ensures 0 <= s.selectedIndex < |categories| ==> 0 <= r.selectedIndex < |categories|
    ensures r.(selectedIndex := s.selectedIndex) == s
  {
    if s.selectedIndex < |categories| - 1 then s.(selectedIndex := s.selectedIndex + 1) else s
  }

  /** Up arrow: previous row, never before the first. */
  function Up(s: State): (r: State)
    ensures s.selectedIndex > 0 ==> r.selectedIndex == s.selectedIndex - 1
    ensures s.selectedIndex <= 0 ==> r == s
    ensures s.selectedIndex >= 0 ==> r.selectedIndex >= 0
    ensures r.(selectedIndex := s.selectedIndex) == s
  {
    if s.selectedIndex > 0 then s.(selectedIndex := s.selectedIndex - 1) else s
  }

  /** The row a commit reads exists: the tapped one, or else the highlighted one. */
  predicate CanSelect(categories: seq<Category>, s: State, index: Option<int>)
  {
    match index
    case Some(i) => 0 <= i < |categories|
    case None => 0 <= s.selectedIndex < |categories|
  }

  /**
   `itemDidSelect(index:)`: a tap highlights its row, then the highlighted
   category is reported and the dropdown toggles exactly once.
   */
  function ItemDidSelect(categories: seq<Category>, s: State, index: Option<int>): (r: Step<State>)
    requires CanSelect(categories, s, index)
    ensures 0 <= r.next.selectedIndex < |categories|
    ensures index.Some? ==> r.next.selectedIndex == index.value
    ensures index.None? ==> r.next.selectedIndex == s.selectedIndex
    ensures r.emitted == [SelectCategory(categories[r.next.selectedIndex].id)]
    ensures r.next.showDropDown == !s.showDropDown && FocusFollows(r.next)
  {
    var picked := if index.Some? then s.(selectedIndex := index.value) else s;
    Step(SetShowDropDown(picked, !picked.showDropDown),
         [SelectCategory(categories[picked.selectedIndex].id)])
  }

  datatype Event = TapHeaderEvent | KeyDown | KeyUp | KeyReturn | KeyEscape | TapItem(index: int)

  /** Taps hit a shown row. */
  predicate Deliverable(categories: seq<Category>, e: Event)
  {
    e.TapItem? ==> 0 <= e.index < |categories|
  }

  /** The highlight is on a row and the focus follows the dropdown. */
  predicate Valid(categories: seq<Category>, s: State)
  {
    0 <= s.selectedIndex < |categories| && FocusFollows(s)
  }

  /** One event of the selector, with the callbacks it fires. */
  function Apply(categories: seq<Category>, s: State, e: Event): Step<State>
    requires Valid(categories, s) && Deliverable(categories, e)
  {
    match e
    case TapHeaderEvent => Step(TapHeader(s), [])
    case KeyDown => Step(Down(categories, s), [])
    case KeyUp => Step(Up(s), [])
    case KeyReturn => ItemDidSelect(categories, s, None)
    case KeyEscape => Step(Escape(s), [])
    case TapItem(i) => ItemDidSelect(categories, s, Some(i))
  }

  /**
   Every event keeps the highlight on a row, so Return can always read it,
   and keeps the focus in step with the dropdown.
   */
  lemma EventKeepsValid(categories: seq<Category>, s: State, e: Event)
    requires Valid(categories, s) && Deliverable(categories, e)
    ensures Valid(categories, Apply(categories, s, e).next)
  {
  }

  /** With at least one category and the session list focused, a fresh selector is valid. */
  lemma InitialValid(categories: seq<Category>)
    requires |categories| > 0
    ensures Valid(categories, Initial(Some(SessionList)))
  {
  }
}

/**
 The category selector of `Home/Views/CategorySelectorView.swift`: the same
 dropdown, but starting with nothing highlighted and tracking its own focus
 flag instead of the home screen's focus.
 */
module CategoryList {
  import opened Items

  datatype State = State(selectedIndex: int, isShowCategories: bool, categoryIsFocused: bool)

  /** A fresh selector: nothing highlighted, list hidden, not focused. */
  const Initial: State := State(-1, false, false)

  /** A tap on the header flips both the list and the focus flag. */
  function TapHeader(s: State): (r: State)
    ensures r.isShowCategories == !s.isShowCategories
    ensures r.categoryIsFocused == !s.categoryIsFocused
    ensures r.selectedIndex == s.selectedIndex
  {
    s.(isShowCategories := !s.isShowCategories, categoryIsFocused := !s.categoryIsFocused)
  }

  /** Down arrow: next row while below the last. */
  function Down(categories: seq<Category>, s: State): (r: State)
    ensures s.selectedIndex < |categories| - 1 ==> r.selectedIndex == s.selectedIndex + 1
    ensures s.selectedIndex >= |categories| - 1 ==> r == s
    ensures r.(selectedIndex := s.selectedIndex) == s
  {
    if s.selectedIndex < |categories| - 1 then s.(selectedIndex := s.selectedIndex + 1) else s
  }

  /** Up arrow: previous row while above the first; nothing highlighted stays so. */
  function Up(s: State): (r: State)
    ensures s.selectedIndex > 0 ==> r.selectedIndex == s.selectedIndex - 1
    ensures s.selectedIndex <= 0 ==> r == s
    ensures r.(selectedIndex := s.selectedIndex) == s
  {
    if s.selectedIndex > 0 then s.(selectedIndex := s.selectedIndex - 1) else s
  }

  /** Escape hides the list and keeps the highlight. */
  function Escape(s: State): (r: State)
    ensures !r.isShowCategories
    ensures r.(isShowCategories := s.isShowCategories) == s
  {
    s.(isShowCategories := false)
  }

  /** A tap on row `index`: highlight it, report its id, flip the list. */
  function SelectIndex(categories: seq<Category>, s: State, index: int): (r: Step<State>)
    requires 0 <= index < |categories|
    ensures r.next.selectedIndex == index
    ensures r.emitted == [SelectCategory(categories[index].id)]
    ensures r.next.isShowCategories == !s.isShowCategories
    ensures r.next.categoryIsFocused == s.categoryIsFocused
  {
    Step(s.(selectedIndex := index, isShowCategories := !s.isShowCategories),
         [SelectCategory(categories[index].id)])
  }

  /** Return reads the highlighted row, which must exist. */
  predicate CanReturn(categories: seq<Category>, s: State)
  {
    0 <= s.selectedIndex < |categories|
  }

  /** Return: report the highlighted id and flip the list. */
  function Return(categories: seq<Category>, s: State): (r: Step<State>)
    requires CanReturn(categories, s)
    ensures r.emitted == [SelectCategory(categories[s.selectedIndex].id)]
    ensures r.next == s.(isShowCategories := !s.isShowCategories)
  {
    Step(s.(isShowCategories := !s.isShowCategories), [SelectCategory(categories[s.selectedIndex].id)])
  }

  /** Return right after the selector appears would read row -1. */
  lemma InitialCannotReturn(categories: seq<Category>)
    ensures !CanReturn(categories, Initial)
  {
  }

  /** `k` presses of the down arrow. */
  function DownTimes(categories: seq<Category>, s: State, k: nat): State
  {
    if k == 0 then s else Down(categories, DownTimes(categories, s, k - 1))
  }

  /**
   From a fresh selector, `k` presses of the down arrow highlight row
   `k - 1`, stopping at the last row; so one press is enough to make
   Return safe whenever there is a category.
   */
  lemma {:induction false} DownFromInitial(categories: seq<Category>, k: nat)
    ensures DownTimes(categories, Initial, k).selectedIndex
         == (if k <= |categories| then k else |categories|) - 1
    ensures k >= 1 && |categories| > 0 ==> CanReturn(categories, DownTimes(categories, Initial, k))
  {
    if k > 0 {
      DownFromInitial(categories, k - 1);
    }
  }

  /** The highlight is -1 or a row. */
  predicate IndexInRange(categories: seq<Category>, s: State)
  {
    -1 <= s.selectedIndex < |categories|
  }

  /** Every handler keeps the highlight at -1 or on a row. */
  lemma HandlersKeepIndexInRange(categories: seq<Category>, s: State, index: int)
    requires IndexInRange(categories, s)
    ensures IndexInRange(categories, TapHeader(s))
    ensures IndexInRange(categories, Down(categories, s))
    ensures IndexInRange(categories, Up(s))
    ensures IndexInRange(categories, Escape(s))
    ensures 0 <= index < |categories| ==> IndexInRange(categories, SelectIndex(categories, s, index).next)
    ensures CanReturn(categories, s) ==> IndexInRange(categories, Return(categories, s).next)
  {
  }
}

=== FILE: clamped_search.dfy ===
/**
 The simpler title field of `Home/Views/DynamicSearchView.swift`.

 Any `@` in the text switches the dropdown to categories. The arrows move a
 highlight that stops at the ends of the list instead of wrapping, and the
 field text is never replaced by the highlighted row. Every text edit
 leaves nothing highlighted.
 */
module ClampedSearch {
  import opened Text
  import opened Items

  datatype SuggestionType = CategoryMode | DefaultMode

  /** The view's state; `selectedIndex` is the highlighted row, -1 for none. */
  datatype State = State(
    text: string,
    isShowSuggestions: bool,
    selectedIndex: int,
    suggestionType: SuggestionType,
    filteredSuggestions: seq<Suggestion>)

  /** The state when the view is created for the host's text. */
  function Initial(text: string): (s: State)
    ensures s.selectedIndex == -1 && !s.isShowSuggestions && s.suggestionType == DefaultMode
  {
    State(text, false, -1, DefaultMode, [])
  }

  /** The rows the dropdown shows: every title for an empty field, the filtered rows otherwise. */
  function Suggestions(cfg: Config, s: State): seq<Suggestion>
  {
    if s.text == "" then cfg.originalSuggestion else s.filteredSuggestions
  }

  /** Any mention in the text selects the category list. */
  function Classify(text: string): (m: SuggestionType)
    ensures m == CategoryMode <==> |Components(text, Mention)| > 1
  {
    if Mention in text then CategoryMode else DefaultMode
  }

  /**
   The category rows for a text in category mode: all categories for a
   one-character text, otherwise the categories matching the second
   non-empty piece between mentions, and all categories when there is
   no such piece.
   */
  function CategoryRows(cfg: Config, text: string): seq<Suggestion>
  {
    if |text| == 1 then cfg.originalCategories
    else
      var pieces := Split(text, Mention);
      if |pieces| >= 2 then FilterByTitle(cfg.originalCategories, pieces[1])
      else cfg.originalCategories
  }

  /** `textFieldOnChanged`: recompute the mode and the filtered rows. */
  function TextFieldOnChanged(cfg: Config, s: State, text: string): (r: State)
    ensures r.suggestionType == Classify(text)
    ensures r.text == s.text && r.isShowSuggestions == s.isShowSuggestions
    ensures r.suggestionType == CategoryMode ==> r.filteredSuggestions == CategoryRows(cfg, text)
    ensures r.suggestionType == DefaultMode
        ==> r.filteredSuggestions == FilterByTitle(cfg.originalSuggestion, text)
  {
    var mode := Classify(text);
    if mode == CategoryMode then
      s.(suggestionType := mode, filteredSuggestions := CategoryRows(cfg, text), selectedIndex := 0)
    else if text == "" then
      FilterEmptyQuery(cfg.originalSuggestion);
      s.(suggestionType := mode, filteredSuggestions := cfg.originalSuggestion)
    else
      s.(suggestionType := mode, filteredSuggestions := FilterByTitle(cfg.originalSuggestion, text),
         selectedIndex := 0)
  }

  /**
   `onChange(of: text)`: the field now holds `newValue`; the handler
   refilters and then clears the highlight, overriding the 0 it set.
   */
  function OnTextChanged(cfg: Config, s: State, newValue: string): (r: State)
    ensures r.text == newValue && r.selectedIndex == -1
    ensures r.isShowSuggestions == s.isShowSuggestions
  {
    TextFieldOnChanged(cfg, s.(text := newValue), newValue).(selectedIndex := -1)
  }

  /**
   After an edit the dropdown shows every title for an empty field, the
   matching titles in their original order for a plain text, and the
   category rows for a text with a mention.
   */
  lemma VisibleRowsAfterEdit(cfg: Config, s: State, newValue: string)
    ensures var r := OnTextChanged(cfg, s, newValue);
      && (newValue == "" ==> Suggestions(cfg, r) == cfg.originalSuggestion)
      && (Mention !in newValue ==> Suggestions(cfg, r) == FilterByTitle(cfg.originalSuggestion, newValue))
      && (Mention in newValue ==> Suggestions(cfg, r) == CategoryRows(cfg, newValue))
  {
    if newValue == "" {
      FilterEmptyQuery(cfg.originalSuggestion);
    }
  }

  /** A lone leading mention followed by a query still lists every category. */
  lemma LeadingMentionListsAll(cfg: Config, query: string)
    requires Mention !in query
    ensures CategoryRows(cfg, [Mention] + query) == cfg.originalCategories
  {
    var text := [Mention] + query;
    assert Join(["", query], Mention) == text;
    ComponentsJoin(["", query], Mention);
    if query != "" {
      assert ["", query][1..] == [query];
      assert [query][1..] == [];
      assert NonEmpty([query]) == [query];
      assert Split(text, Mention) == [query];
    }
  }

  /** A title, a mention and a query list the categories matching the query. */
  lemma TitleMentionFiltersByQuery(cfg: Config, title: string, query: string)
    requires Mention !in title && Mention !in query && title != "" && query != ""
    ensures CategoryRows(cfg, title + [Mention] + query) == FilterByTitle(cfg.originalCategories, query)
  {
    var text := title + [Mention] + query;
    assert Join([title, query], Mention) == text;
    ComponentsJoin([title, query], Mention);
    assert NonEmpty([query]) == [query];
    assert Split(text, Mention) == [title, query];
  }

  /** Down arrow: next row, but never past the last one. */
  function Down(cfg: Config, s: State): (r: State)
    ensures s.selectedIndex < |Suggestions(cfg, s)| - 1 ==> r.selectedIndex == s.selectedIndex + 1
    ensures s.selectedIndex >= |Suggestions(cfg, s)| - 1 ==> r == s
    ensures s.selectedIndex <= |Suggestions(cfg, s)| - 1 ==> r.selectedIndex <= |Suggestions(cfg, s)| - 1
    ensures r.(selectedIndex := s.selectedIndex) == s
  {
    if s.selectedIndex < |Suggestions(cfg, s)| - 1 then s.(selectedIndex := s.selectedIndex + 1) else s
  }

  /** Up arrow: previous row, but never below the first one; -1 stays -1. */
  function Up(s: State): (r: State)
    ensures s.selectedIndex > 0 ==> r.selectedIndex == s.selectedIndex - 1
    ensures s.selectedIndex <= 0 ==> r == s
    ensures s.selectedIndex >= 0 ==> r.selectedIndex >= 0
    ensures r.(selectedIndex := s.selectedIndex) == s
  {
    if s.selectedIndex > 0 then s.(selectedIndex := s.selectedIndex - 1) else s
  }

  /** Down then Up returns to any row but the last; Up then Down to any row but the first. */
  lemma ArrowsUndoInside(cfg: Config, s: State)
    ensures 0 <= s.selectedIndex < |Suggestions(cfg, s)| - 1 ==> Up(Down(cfg, s)) == s
    ensures 0 < s.selectedIndex < |Suggestions(cfg, s)| ==> Down(cfg, Up(s)) == s
  {
  }

  /** Escape hides the dropdown and changes nothing else. */
  function Escape(s: State): (r: State)
    ensures !r.isShowSuggestions
    ensures r.(isShowSuggestions := s.isShowSuggestions) == s
  {
    s.(isShowSuggestions := false)
  }

  /** Focus moving to the field shows the dropdown. */
  function FocusChanged(s: State): (r: State)
    ensures r.isShowSuggestions
    ensures r.(isShowSuggestions := s.isShowSuggestions) == s
  {
    s.(isShowSuggestions := true)
  }

  /** In category mode a commit reads the highlighted visible row. */
  predicate CanSelectItem(cfg: Config, s: State)
  {
    s.suggestionType == CategoryMode ==> 0 <= s.selectedIndex < |Suggestions(cfg, s)|
  }

  /**
   `itemDidSelect`: in category mode pick the highlighted category and keep
   the text before the first mention; otherwise report the highlighted
   title when the field is empty, then toggle the dropdown, report the save
   and clear the field.
   */
  function ItemDidSelect(cfg: Config, s: State): (r: Step<State>)
    requires CanSelectItem(cfg, s)
    ensures s.suggestionType == CategoryMode
        ==> && r.emitted == [SelectCategory(Suggestions(cfg, s)[s.selectedIndex].id)]
            && Mention !in r.next.text && IsPrefix(r.next.text, s.text)
            && (|r.next.text| < |s.text| ==> s.text[|r.next.text|] == Mention)
            && r.next.isShowSuggestions == s.isShowSuggestions
    ensures s.suggestionType == DefaultMode
        ==> && r.next.text == ""
            && r.next.isShowSuggestions == !s.isShowSuggestions
            && |r.emitted| > 0 && r.emitted[|r.emitted| - 1] == DidSave
            && (s.text == "" && 0 <= s.selectedIndex < |cfg.originalSuggestion|
                ==> r.emitted == [SelectSuggestion(cfg.originalSuggestion[s.selectedIndex].id), DidSave])
            && (!(s.text == "" && 0 <= s.selectedIndex < |cfg.originalSuggestion|)
                ==> r.emitted == [DidSave])
    ensures r.next.selectedIndex == s.selectedIndex
    ensures r.next.suggestionType == s.suggestionType && r.next.filteredSuggestions == s.filteredSuggestions
  {
    if s.suggestionType == CategoryMode then
      FirstComponent(s.text, Mention);
      Step(s.(text := Components(s.text, Mention)[0]),
           [SelectCategory(Suggestions(cfg, s)[s.selectedIndex].id)])
    else
      var picked :=
        if s.text == "" && 0 <= s.selectedIndex < |cfg.originalSuggestion| then
          [SelectSuggestion(cfg.originalSuggestion[s.selectedIndex].id)]
        else [];
      Step(s.(isShowSuggestions := !s.isShowSuggestions, text := ""), picked + [DidSave])
  }

  /** Return commits the highlighted row: the same as a click on it, whenever it is visible. */
  function Return(cfg: Config, s: State): (r: Step<State>)
    requires CanSelectItem(cfg, s)
    ensures 0 <= s.selectedIndex < |Suggestions(cfg, s)| ==> r == TapItem(cfg, s, s.selectedIndex)
  {
    ItemDidSelect(cfg, s)
  }

  /** A tap on visible row `index`: highlight it, then commit. */
  function TapItem(cfg: Config, s: State, index: int): (r: Step<State>)
    requires 0 <= index < |Suggestions(cfg, s)|
    ensures s.suggestionType == CategoryMode ==> r.emitted == [SelectCategory(Suggestions(cfg, s)[index].id)]
    ensures s.suggestionType == DefaultMode && s.text == ""
        ==> r.emitted == [SelectSuggestion(cfg.originalSuggestion[index].id), DidSave]
  {
    ItemDidSelect(cfg, s.(selectedIndex := index))
  }
}

=== FILE: home.dfy ===
/**
 The bookkeeping of `HomeView.swift`: the list of sessions with a
 keyboard cursor, the recent-title suggestions that a save reorders, and
 the category picked for the next session.
 */
module Home {
  import opened Options
  import opened Items

  /** The category shown before the user picks one; its id -1 means "none". */
  const Unselected: Category := Candidate(-1, "Category")

  /** Fresh ids are drawn from this range. */
  const MinFreshId: int := 100
  const MaxFreshId: int := 100000

  datatype State = State(
    categories: seq<Category>,
    suggestions: seq<Suggestion>,
    sessions: seq<Session>,
    sessionIndex: int,
    selectedCategory: Category,
    focus: Option<FocusType>)

  /** The screen's sample data, with no category picked and the first session under the cursor. */
  function Initial(): (s: State)
    ensures |s.sessions| == 5 && s.sessionIndex == 0 && s.selectedCategory.id == -1
  {
    State(
      [ Candidate(1, "Work"), Candidate(2, "Freelance"), Candidate(3, "Sleep"), Candidate(4, "Games"),
        Candidate(5, "Music"), Candidate(6, "Hobby"), Candidate(7, "School"), Candidate(8, "Others") ],
      [ Candidate(1, "Slicing UI"), Candidate(2, "Meeting with PM"), Candidate(3, "API Integration"),
        Candidate(4, "Meeting with Backend"), Candidate(5, "Drawing"), Candidate(6, "API Meeting"),
        Candidate(7, "API meet"), Candidate(8, "google meet"), Candidate(9, "Design UI"),
        Candidate(10, "Fixing UI"), Candidate(11, "Integration meeting") ],
      [ Session(1, "Slicing UI", 1, true), Session(2, "Meeting with PM", 1, true),
        Session(3, "API Integration", 1, false), Session(4, "Meeting with Backend", 1, false),
        Session(5, "Drawing", 6, false) ],
      0, Unselected, None)
  }

  /** The position of the first category with id `id`, if any (`first(where:)`). */
  function FirstWithId(cs: seq<Category>, id: int): (r: Option<nat>)
    ensures r.Some? ==> r.value < |cs| && cs[r.value].id == id
    ensures r.Some? ==> forall j :: 0 <= j < r.value ==> cs[j].id != id
    ensures r.None? ==> forall j :: 0 <= j < |cs| ==> cs[j].id != id
  {
    if |cs| == 0 then None
    else if cs[0].id == id then Some(0)
    else match FirstWithId(cs[1..], id)
      case None => None
      case Some(k) => Some(k + 1)
  }

  /** `categoryDidSelect`: pick the first category with this id; an unknown id changes nothing. */
  function CategoryDidSelect(s: State, id: int): (r: State)
    ensures (exists j :: 0 <= j < |s.categories| && s.categories[j].id == id)
        ==> r.selectedCategory.id == id && r.selectedCategory in s.categories
    ensures (forall j :: 0 <= j < |s.categories| ==> s.categories[j].id != id) ==> r == s
    ensures r.(selectedCategory := s.selectedCategory) == s
  {
    match FirstWithId(s.categories, id)
    case None => s
    case Some(k) => s.(selectedCategory := s.categories[k])
  }

  /** The picked category is the earliest one carrying the id. */
  lemma CategoryDidSelectPicksFirst(s: State, id: int, j: int)
    requires 0 <= j < |s.categories| && s.categories[j].id == id
    ensures exists k :: 0 <= k <= j && CategoryDidSelect(s, id).selectedCategory == s.categories[k]
                        && (forall m :: 0 <= m < k ==> s.categories[m].id != id)
  {
    var r := FirstWithId(s.categories, id);
    assert r.Some?;
    assert r.value <= j;
  }

  /** The position of the first suggestion whose title contains `title`, ignoring case. */
  function FirstMatch(xs: seq<Suggestion>, title: string): (r: Option<nat>)
    ensures r.Some? ==> r.value < |xs| && Matches(xs[r.value].title, title)
    ensures r.Some? ==> forall j :: 0 <= j < r.value ==> !Matches(xs[j].title, title)
    ensures r.None? ==> forall j :: 0 <= j < |xs| ==> !Matches(xs[j].title, title)
  {
    if |xs| == 0 then None
    else if Matches(xs[0].title, title) then Some(0)
    else match FirstMatch(xs[1..], title)
      case None => None
      case Some(k) => Some(k + 1)
  }

  /** Entry `i` moved to the front, the ones before it shifted back by one. */
  function MoveToFront(xs: seq<Suggestion>, i: nat): (r: seq<Suggestion>)
    requires i < |xs|
    ensures |r| == |xs| && multiset(r) == multiset(xs)
    ensures r[0] == xs[i]
    ensures forall j :: 0 <= j < i ==> r[j + 1] == xs[j]
    ensures forall j :: i < j < |xs| ==> r[j] == xs[j]
  {
    assert xs == xs[..i] + [xs[i]] + xs[i + 1..];
    [xs[i]] + xs[..i] + xs[i + 1..]
  }

  /** A save may go ahead: a title that is not empty, a picked category, and no leading mention. */
  predicate CanSave(s: State, title: string)
  {
    title != "" && s.selectedCategory.id != -1 && title[0] != '@'
  }

  /** The suggestions after saving `title`: the first match moved to the front, or a new entry. */
  function PromoteTitle(xs: seq<Suggestion>, title: string, freshId: int): seq<Suggestion>
  {
    match FirstMatch(xs, title)
    case Some(i) => MoveToFront(xs, i)
    case None => [Candidate(freshId, title)] + xs
  }

  /**
   `saveSession`: on a valid title add a new open session at the top with
   the picked category, put the cursor on it and promote the title among
   the suggestions; in every case move focus to the session list.
   */
  function SaveSession(s: State, title: string, sessionId: int, suggestionId: int): (r: State)
    requires MinFreshId <= sessionId <= MaxFreshId && MinFreshId <= suggestionId <= MaxFreshId
    ensures r.focus == Some(SessionList)
    ensures r.categories == s.categories && r.selectedCategory == s.selectedCategory
    ensures !CanSave(s, title) ==> r == s.(focus := Some(SessionList))
    ensures CanSave(s, title)
        ==> && r.sessions == [Session(sessionId, title, s.selectedCategory.id, false)] + s.sessions
            && r.sessionIndex == 0
            && r.suggestions == PromoteTitle(s.suggestions, title, suggestionId)
  {
    if !CanSave(s, title) then s.(focus := Some(SessionList))
    else
      s.(sessions := [Session(sessionId, title, s.selectedCategory.id, false)] + s.sessions,
         sessionIndex := 0,
         focus := Some(SessionList),
         suggestions := PromoteTitle(s.suggestions, title, suggestionId))
  }

  /** An accepted save grows the sessions by one and shifts the old ones down by one place. */
  lemma SaveShiftsSessions(s: State, title: string, sessionId: int, suggestionId: int)
    requires MinFreshId <= sessionId <= MaxFreshId && MinFreshId <= suggestionId <= MaxFreshId
    requires CanSave(s, title)
    ensures var r := SaveSession(s, title, sessionId, suggestionId);
      && |r.sessions| == |s.sessions| + 1
      && r.sessions[0].title == title && !r.sessions[0].isDone
      && r.sessions[0].categoryId == s.selectedCategory.id && r.sessions[0].categoryId != -1
      && (forall k :: 0 <= k < |s.sessions| ==> r.sessions[k + 1] == s.sessions[k])
  {
  }

  /**
   When a suggestion contains the saved title, the suggestions are only
   reordered: the first such one comes first and nothing is added or lost.
   */
  lemma SavePromotesMatch(s: State, title: string, sessionId: int, suggestionId: int, j: int)
    requires MinFreshId <= sessionId <= MaxFreshId && MinFreshId <= suggestionId <= MaxFreshId
    requires CanSave(s, title)
    requires 0 <= j < |s.suggestions| && Matches(s.suggestions[j].title, title)
    ensures var r := SaveSession(s, title, sessionId, suggestionId);
      && |r.suggestions| == |s.suggestions|
      && multiset(r.suggestions) == multiset(s.suggestions)
      && Matches(r.suggestions[0].title, title)
      && (exists i :: 0 <= i <= j && r.suggestions[0] == s.suggestions[i]
            && forall k :: 0 <= k < i ==> !Matches(s.suggestions[k].title, title))
  {
    var i := FirstMatch(s.suggestions, title);
    assert i.Some? && i.value <= j;
  }

  /** When no suggestion contains the saved title, it is added at the top under the fresh id. */
  lemma SaveAddsNewSuggestion(s: State, title: string, sessionId: int, suggestionId: int)
    requires MinFreshId <= sessionId <= MaxFreshId && MinFreshId <= suggestionId <= MaxFreshId
    requires CanSave(s, title)
    requires forall k :: 0 <= k < |s.suggestions| ==> !Matches(s.suggestions[k].title, title)
    ensures var r := SaveSession(s, title, sessionId, suggestionId);
      && |r.suggestions| == |s.suggestions| + 1
      && r.suggestions[0] == Candidate(suggestionId, title)
      && r.suggestions[1..] == s.suggestions
  {
  }

  /** No save can happen before a category is picked. */
  lemma InitialRejectsSave(title: string, sessionId: int, suggestionId: int)
    requires MinFreshId <= sessionId <= MaxFreshId && MinFreshId <= suggestionId <= MaxFreshId
    ensures SaveSession(Initial(), title, sessionId, suggestionId).sessions == Initial().sessions
  {
  }

  /** The cursor is on a session. */
  predicate CursorValid(s: State)
  {
    0 <= s.sessionIndex < |s.sessions|
  }

  /** Down arrow in the session list: next session, never past the last. */
  function SessionDown(s: State): (r: State)
    ensures s.sessionIndex < |s.sessions| - 1 ==> r.sessionIndex == s.sessionIndex + 1
    ensures s.sessionIndex >= |s.sessions| - 1 ==> r == s
    ensures CursorValid(s) ==> CursorValid(r)
    ensures r.(sessionIndex := s.sessionIndex) == s
  {
    if s.sessionIndex < |s.sessions| - 1 then s.(sessionIndex := s.sessionIndex + 1) else s
  }

  /** Up arrow in the session list: previous session, never before the first. */
  function SessionUp(s: State): (r: State)
    ensures s.sessionIndex > 0 ==> r.sessionIndex == s.sessionIndex - 1
    ensures s.sessionIndex <= 0 ==> r == s
    ensures CursorValid(s) ==> CursorValid(r)
    ensures r.(sessionIndex := s.sessionIndex) == s
  {
    if s.sessionIndex > 0 then s.(sessionIndex := s.sessionIndex - 1) else s
  }

  /** A tap on session row `index` moves the cursor there. */
  function TapSession(s: State, index: int): (r: State)
    requires 0 <= index < |s.sessions|
    ensures CursorValid(r) && r.sessionIndex == index
    ensures r.(sessionIndex := s.sessionIndex) == s
  {
    s.(sessionIndex := index)
  }

  /** Flip the done mark of one session. */
  function ToggleDone(s: State, index: int): (r: State)
    requires 0 <= index < |s.sessions|
    ensures |r.sessions| == |s.sessions|
    ensures r.sessions[index].isDone == !s.sessions[index].isDone
    ensures r.sessions[index].(isDone := s.sessions[index].isDone) == s.sessions[index]
    ensures forall k :: 0 <= k < |s.sessions| && k != index ==> r.sessions[k] == s.sessions[k]
    ensures r.(sessions := s.sessions) == s
  {
    var session := s.sessions[index];
    s.(sessions := s.sessions[index := session.(isDone := !session.isDone)])
  }

  /** Return in the session list flips the done mark under the cursor. */
  function SessionReturn(s: State): (r: State)
    requires CursorValid(s)
    ensures |r.sessions| == |s.sessions|
    ensures r.sessions[s.sessionIndex]
         == s.sessions[s.sessionIndex].(isDone := !s.sessions[s.sessionIndex].isDone)
    ensures forall k :: 0 <= k < |s.sessions| && k != s.sessionIndex ==> r.sessions[k] == s.sessions[k]
    ensures r.(sessions := s.sessions) == s
  {
    ToggleDone(s, s.sessionIndex)
  }

  /** Flipping the same mark twice restores the state. */
  lemma ToggleTwiceRestores(s: State, index: int)
    requires 0 <= index < |s.sessions|
    ensures ToggleDone(ToggleDone(s, index), index) == s
  {
    assert ToggleDone(ToggleDone(s, index), index).sessions == s.sessions;
  }

  /** The events the home screen reacts to. */
  datatype Event =
    | KeyDown
    | KeyUp
    | KeyReturn
    | TapRow(index: int)
    | TapCheckbox(index: int)
    | Save(title: string, sessionId: int, suggestionId: int)
    | PickCategory(id: int)

  /** The event can be delivered: taps hit a shown row and fresh ids are in range. */
  predicate Deliverable(s: State, e: Event)
  {
    match e
    case TapRow(i) => 0 <= i < |s.sessions|
    case TapCheckbox(i) => 0 <= i < |s.sessions|
    case Save(_, a, b) => MinFreshId <= a <= MaxFreshId && MinFreshId <= b <= MaxFreshId
    case _ => true
  }

  /** One event of the home screen. */
  function Apply(s: State, e: Event): State
    requires CursorValid(s) && Deliverable(s, e)
  {
    match e
    case KeyDown => SessionDown(s)
    case KeyUp => SessionUp(s)
    case KeyReturn => SessionReturn(s)
    case TapRow(i) => TapSession(s, i)
    case TapCheckbox(i) => ToggleDone(s, i)
    case Save(t, a, b) => SaveSession(s, t, a, b)
    case PickCategory(id) => CategoryDidSelect(s, id)
  }

  /**
   The cursor always stays on a session, so Return can never read outside
   the list; sessions are never removed.
   */
  lemma EventKeepsCursorValid(s: State, e: Event)
    requires CursorValid(s) && Deliverable(s, e)
    ensures CursorValid(Apply(s, e))
    ensures |Apply(s, e).sessions| >= |s.sessions|
  {
  }

  /** The first screen has its cursor on a session. */
  lemma InitialCursorValid()
    ensures CursorValid(Initial())
  {
  }
}

=== FILE: items.dfy ===
/** The optional value used for lookups that may find nothing, and for the optional focus target. */
module Options {

  datatype Option<+T> = None | Some(value: T)
}

/**
 The records the views share: dropdown rows, sessions, the focus targets
 of the home screen, and the callbacks a view fires, returned as values.
 */
module Items {
  import opened Text

  /**
   One dropdown row: a recent task title (`Suggestion`) or a category
   (`Category`). Both carry an id and a title; their colour is a rendering
   detail and is not modelled, so converting a category into a suggestion
   row is the identity.
   */
  datatype Candidate = Candidate(id: int, title: string)

  type Suggestion = Candidate

  type Category = Candidate

  /** A tracked piece of work, tagged with a category id. */
  datatype Session = Session(id: int, title: string, categoryId: int, isDone: bool)

  /** Which control of the home screen holds keyboard focus. */
  datatype FocusType = CategoryField | InputTitleField | SessionList

  /**
   The callbacks the views invoke: `titleDidSave(title)`, `categoryDidSelect(id)`
   or a selector's `itemDidSelect(id)`, `suggestionDidSelect(id)` and `didSave()`.
   */
  datatype Action = SaveTitle(title: string) | SelectCategory(id: int) | SelectSuggestion(id: int) | DidSave

  /**
   The lists the host passes to a title field on each call. The home
   screen's suggestions change after every accepted save, so a handler
   sees the lists as they are when it runs.
   */
  datatype Config = Config(originalSuggestion: seq<Suggestion>, originalCategories: seq<Category>)

  /** The state after an event together with the callbacks it fired, in order. */
  datatype Step<S> = Step(next: S, emitted: seq<Action>)

  /** Case-insensitive substring match of a query against a title. */
  predicate Matches(title: string, query: string)
  {
    Contains(LowerStr(title), LowerStr(query))
  }

  /** Matching ignores the case of both the title and the query. */
  lemma MatchesIgnoresCase(title: string, query: string)
    ensures Matches(title, query) == Matches(LowerStr(title), query)
    ensures Matches(title, query) == Matches(title, LowerStr(query))
  {
    LowerStrIdempotent(title);
    LowerStrIdempotent(query);
  }

  /** The empty query matches every title. */
  lemma EmptyQueryMatches(title: string)
    ensures Matches(title, "")
  {
    assert IsPrefix(LowerStr(""), LowerStr(title));
  }

  /**
   The entries whose title matches `query`, in source order (Swift's
   `filter { $0.title.lowercased().contains(query.lowercased()) }`).
   The result keeps every matching entry as often as the source holds it,
   drops every other one, and does not reorder: together these determine
   the result.
   */
  function FilterByTitle(xs: seq<Candidate>, query: string): (r: seq<Candidate>)
    ensures IsSubsequence(r, xs)
    ensures forall x :: multiset(r)[x] == if Matches(x.title, query) then multiset(xs)[x] else 0
  {
    if |xs| == 0 then []
    else
      var rest := FilterByTitle(xs[1..], query);
      assert xs == [xs[0]] + xs[1..];
      if Matches(xs[0].title, query) then
        assert ([xs[0]] + rest)[1..] == rest;
        [xs[0]] + rest
      else rest
  }

  /** An entry is in the filtered list exactly when it is in the source and matches. */
  lemma FilterMembership(xs: seq<Candidate>, query: string, x: Candidate)
    ensures x in FilterByTitle(xs, query) <==> x in xs && Matches(x.title, query)
  {
    var r := FilterByTitle(xs, query);
    assert x in r <==> multiset(r)[x] > 0;
    assert x in xs <==> multiset(xs)[x] > 0;
  }

  /** When every entry matches, filtering returns the source list unchanged. */
  lemma {:induction false} FilterAllMatch(xs: seq<Candidate>, query: string)
    requires forall k :: 0 <= k < |xs| ==> Matches(xs[k].title, query)
    ensures FilterByTitle(xs, query) == xs
  {
    if |xs| > 0 {
      FilterAllMatch(xs[1..], query);
      assert [xs[0]] + xs[1..] == xs;
    }
  }

  /** The empty query keeps the whole source list in its original order. */
  lemma FilterEmptyQuery(xs: seq<Candidate>)
    ensures FilterByTitle(xs, "") == xs
  {
    forall k | 0 <= k < |xs|
      ensures Matches(xs[k].title, "")
    {
      EmptyQueryMatches(xs[k].title);
    }
    FilterAllMatch(xs, "");
  }

  /** Filtering by a query or by its lower-case form gives the same list. */
  lemma {:induction false} FilterIgnoresQueryCase(xs: seq<Candidate>, query: string)
    ensures FilterByTitle(xs, query) == FilterByTitle(xs, LowerStr(query))
  {
    if |xs| > 0 {
      MatchesIgnoresCase(xs[0].title, query);
      FilterIgnoresQueryCase(xs[1..], query);
    }
  }

  /** A needle whose first character never occurs in the hay is not contained in it. */
  lemma {:induction false} AbsentFirstCharNoMatch(hay: string, needle: string)
    requires |needle| > 0 && needle[0] !in hay
    ensures !Contains(hay, needle)
    decreases |hay|
  {
    if |hay| > 0 {
      AbsentFirstCharNoMatch(hay[1..], needle);
    }
  }

  /** "ui" picks "Slicing UI" and drops "Meeting". */
  lemma FilterExample()
    ensures FilterByTitle([Candidate(1, "Slicing UI"), Candidate(2, "Meeting")], "ui")
         == [Candidate(1, "Slicing UI")]
  {
    var q := LowerStr("ui");
    assert q == "ui";
    var a := LowerStr("Slicing UI");
    assert a[8] == 'u' && a[9] == 'i';
    assert a[8..10] == q;
    assert OccursAt(a, q, 8);
    ContainsIffOccurs(a, q);
    var b := LowerStr("Meeting");
    assert 'u' !in b;
    AbsentFirstCharNoMatch(b, q);
    var xs := [Candidate(1, "Slicing UI"), Candidate(2, "Meeting")];
    assert xs[1..][1..] == [];
  }
}

=== FILE: mention_search.dfy ===
/**
 The mention-style title field of `Home/DynamicSearchView.swift`.

 The field holds free text. Typing `@` switches the dropdown from recent
 task titles to categories: a text that starts with `@` is in category
 mode, a text with `@` further on is in "category on recent input" mode
 (a title followed by a category mention), and a text without `@` is in
 recent-input mode. Arrow keys move a highlight that wraps around through
 -1 ("nothing highlighted"), and the field shows the highlighted row in
 place of what was typed. Return or a click commits.

 Each handler is a pure function from the view's state to the next one.
 SwiftUI runs `onChange(of: text)` after a handler has assigned a new
 text; here that is `OnTextChanged`, which the host applies next.
 */
module MentionSearch {
  import opened Options
  import opened Text
  import opened Items

  /** What the dropdown lists and how the field text is composed. */
  datatype SuggestionType = CategoryMode | CategoryOnRecentInputMode | RecentInputMode

  /**
   The view's state. `dropDownIndex` is the highlighted row, -1 for none;
   `titleUserInput` and `categoryUserInput` remember what the user typed
   before the arrows replaced the text with a highlighted row.
   */
  datatype State = State(
    text: string,
    focus: Option<FocusType>,
    showDropDown: bool,
    dropDownIndex: int,
    suggestionType: SuggestionType,
    filteredSuggestions: seq<Suggestion>,
    isKeyboardTypes: bool,
    titleUserInput: string,
    categoryUserInput: string)

  /** The state once the view has appeared with the host's text and focus. */
  function Appear(cfg: Config, text: string, focus: Option<FocusType>): (s: State)
    ensures s.dropDownIndex == -1 && !s.showDropDown && s.suggestionType == RecentInputMode
    ensures s.filteredSuggestions == cfg.originalSuggestion
  {
    State(text, focus, false, -1, RecentInputMode, cfg.originalSuggestion, false, "", "")
  }

  /**
   The mode is a function of the text alone: no mention gives one piece,
   a leading mention gives an empty first piece.
   */
  function Classify(text: string): (m: SuggestionType)
    ensures m == RecentInputMode <==> |Components(text, Mention)| == 1
    ensures m == CategoryMode
        <==> |Components(text, Mention)| > 1 && Components(text, Mention)[0] == ""
    ensures m == CategoryOnRecentInputMode
        <==> |Components(text, Mention)| > 1 && Components(text, Mention)[0] != ""
  {
    if Mention in text then
      if text[0] == Mention then CategoryMode else CategoryOnRecentInputMode
    else RecentInputMode
  }

  /** The title part: the text before the first mention. */
  function TitlePart(text: string): string
  {
    Components(text, Mention)[0]
  }

  /** The category part: the text after the last mention. */
  function CategoryPart(text: string): string
  {
    var parts := Components(text, Mention);
    parts[|parts| - 1]
  }

  /** The title part is a mention-free prefix that ends where the first mention is. */
  lemma TitlePartIsPrefixBeforeMention(text: string)
    ensures Mention !in TitlePart(text)
    ensures IsPrefix(TitlePart(text), text)
    ensures |TitlePart(text)| < |text| ==> text[|TitlePart(text)|] == Mention
  {
    FirstComponent(text, Mention);
  }

  /** The category part is a mention-free suffix that starts right after the last mention. */
  lemma CategoryPartIsSuffixAfterMention(text: string)
    ensures Mention !in CategoryPart(text)
    ensures |CategoryPart(text)| <= |text|
    ensures text[|text| - |CategoryPart(text)|..] == CategoryPart(text)
    ensures |CategoryPart(text)| < |text| ==> text[|text| - |CategoryPart(text)| - 1] == Mention
  {
    LastComponent(text, Mention);
  }

  /** `filterCategory`: all categories for an empty query, the matching ones otherwise. */
  function FilterCategory(cfg: Config, query: string): (r: seq<Suggestion>)
    ensures forall x :: x in r <==> x in cfg.originalCategories && Matches(x.title, query)
    ensures r == FilterByTitle(cfg.originalCategories, query)
  {
    if query == "" then
      forall x | x in cfg.originalCategories
        ensures Matches(x.title, query)
      {
        EmptyQueryMatches(x.title);
      }
      FilterEmptyQuery(cfg.originalCategories);
      cfg.originalCategories
    else
      forall x
        ensures x in FilterByTitle(cfg.originalCategories, query)
            <==> x in cfg.originalCategories && Matches(x.title, query)
      {
        FilterMembership(cfg.originalCategories, query, x);
      }
      FilterByTitle(cfg.originalCategories, query)
  }

  /** `filterRecentInput`: refilters the titles, but only in recent-input mode. */
  function FilterRecentInput(cfg: Config, s: State, query: string): (r: State)
    ensures s.suggestionType != RecentInputMode ==> r == s
    ensures s.suggestionType == RecentInputMode
        ==> r == s.(filteredSuggestions := FilterByTitle(cfg.originalSuggestion, query))
  {
    if s.suggestionType == RecentInputMode then
      if query == "" then
        FilterEmptyQuery(cfg.originalSuggestion);
        s.(filteredSuggestions := cfg.originalSuggestion)
      else
        s.(filteredSuggestions := FilterByTitle(cfg.originalSuggestion, query))
    else s
  }

  /** The first part of the text handler: mode, and what the user typed. */
  function CaptureInput(s: State, newValue: string): State
  {
    var mode := Classify(newValue);
    var typed := s.(text := newValue, suggestionType := mode);
    if !s.isKeyboardTypes then typed
    else match mode
      case RecentInputMode =>
        typed.(dropDownIndex := -1, titleUserInput := RemoveAll(newValue, Mention))
      case CategoryMode =>
        typed.(dropDownIndex := -1, categoryUserInput := RemoveAll(newValue, Mention))
      case CategoryOnRecentInputMode =>
        typed.(titleUserInput := TitlePart(newValue), categoryUserInput := CategoryPart(newValue))
  }

  /** An emptied field stops counting as typed and lists every title again. */
  function ResetIfEmpty(cfg: Config, s: State): State
  {
    if s.text == "" then s.(isKeyboardTypes := false, filteredSuggestions := cfg.originalSuggestion)
    else s
  }

  /** `categoryDidChange`: refilter categories unless a row is highlighted and a query is typed. */
  function CategoryDidChange(cfg: Config, s: State): State
  {
    if s.dropDownIndex == -1 || s.categoryUserInput == "" then
      s.(filteredSuggestions := FilterCategory(cfg, s.categoryUserInput))
    else s
  }

  /** The read of the highlighted row in `userInputDidChange` is in bounds. */
  predicate CanCompareHighlight(s: State)
  {
    s.dropDownIndex == -1 || |s.filteredSuggestions| == 0
    || 0 <= s.dropDownIndex < |s.filteredSuggestions|
  }

  /** `userInputDidChange`: refilter titles when the query left the highlighted row, or on typing. */
  function UserInputDidChange(cfg: Config, s: State, query: string): State
    requires CanCompareHighlight(s)
  {
    if s.dropDownIndex != -1 && |s.filteredSuggestions| != 0
       && query != s.filteredSuggestions[s.dropDownIndex].title then
      FilterRecentInput(cfg, s, query)
    else if s.dropDownIndex == -1 && s.isKeyboardTypes then
      FilterRecentInput(cfg, s, query)
    else s
  }

  /** The state the refilter step of the text handler starts from. */
  function BeforeRefilter(cfg: Config, s: State, newValue: string): State
  {
    ResetIfEmpty(cfg, CaptureInput(s, newValue))
  }

  /** The text handler does not read a row out of bounds. */
  predicate CanChangeText(cfg: Config, s: State, newValue: string)
  {
    var t := BeforeRefilter(cfg, s, newValue);
    t.suggestionType != RecentInputMode || CanCompareHighlight(t)
  }

  /** `onChange(of: text)`: the field now holds `newValue`. */
  function OnTextChanged(cfg: Config, s: State, newValue: string): (r: State)
    requires CanChangeText(cfg, s, newValue)
    ensures r.text == newValue
    ensures r.suggestionType == Classify(newValue)
    ensures r.focus == s.focus && r.showDropDown == s.showDropDown
  {
    var t := BeforeRefilter(cfg, s, newValue);
    if t.suggestionType != RecentInputMode then CategoryDidChange(cfg, t)
    else UserInputDidChange(cfg, t, t.titleUserInput)
  }

  /** A letter or delete key was pressed: the next text change counts as typing. */
  function KeyTyped(s: State): (r: State)
    ensures r.isKeyboardTypes
    ensures r.(isKeyboardTypes := s.isKeyboardTypes) == s
  {
    s.(isKeyboardTypes := true)
  }

  /** Typing a title filters the recent titles by it and clears the highlight. */
  lemma TypingTitleFilters(cfg: Config, s: State, newValue: string)
    requires s.isKeyboardTypes && Mention !in newValue
    ensures CanChangeText(cfg, s, newValue)
    ensures var r := OnTextChanged(cfg, s, newValue);
      && r.suggestionType == RecentInputMode
      && r.dropDownIndex == -1
      && r.titleUserInput == newValue
      && r.filteredSuggestions == FilterByTitle(cfg.originalSuggestion, newValue)
  {
    if newValue == "" {
      FilterEmptyQuery(cfg.originalSuggestion);
    }
  }

  /** Typing after a leading mention lists the categories matching the rest of the text. */
  lemma TypingMentionFiltersCategories(cfg: Config, s: State, newValue: string)
    requires s.isKeyboardTypes && |newValue| > 0 && newValue[0] == Mention
    ensures CanChangeText(cfg, s, newValue)
    ensures var r := OnTextChanged(cfg, s, newValue);
      && r.suggestionType == CategoryMode
      && r.dropDownIndex == -1
      && r.categoryUserInput == RemoveAll(newValue, Mention)
      && r.filteredSuggestions == FilterCategory(cfg, RemoveAll(newValue, Mention))
  {
  }

  /**
   Typing a mention after a title keeps the title part and the category
   part apart; the category list is refiltered unless a row is still
   highlighted while a category query is typed.
   */
  lemma TypingMixedSplitsParts(cfg: Config, s: State, newValue: string)
    requires s.isKeyboardTypes && Classify(newValue) == CategoryOnRecentInputMode
    ensures CanChangeText(cfg, s, newValue)
    ensures var r := OnTextChanged(cfg, s, newValue);
      && r.titleUserInput == TitlePart(newValue)
      && r.categoryUserInput == CategoryPart(newValue)
      && r.dropDownIndex == s.dropDownIndex
      && (s.dropDownIndex == -1 || CategoryPart(newValue) == ""
          ==> r.filteredSuggestions == FilterCategory(cfg, CategoryPart(newValue)))
  {
    assert newValue != "";
  }

  /** Delivering the same typed text twice changes nothing the second time. */
  lemma TypingIdempotent(cfg: Config, s: State, newValue: string)
    requires s.isKeyboardTypes && CanChangeText(cfg, s, newValue)
    ensures CanChangeText(cfg, OnTextChanged(cfg, s, newValue), newValue)
    ensures OnTextChanged(cfg, OnTextChanged(cfg, s, newValue), newValue) == OnTextChanged(cfg, s, newValue)
  {
  }

  /** The field text for a mode, a title part and the text after the mention. */
  function Compose(mode: SuggestionType, title: string, tail: string): string
  {
    match mode
    case CategoryOnRecentInputMode => title + [Mention] + tail
    case CategoryMode => [Mention] + tail
    case RecentInputMode => tail
  }

  /**
   Reading a composed text back gives the same mode and the same parts:
   the title before the mention and the tail after it.
   */
  lemma {:induction false} ComposeRoundTrip(mode: SuggestionType, title: string, tail: string)
    requires Mention !in title && Mention !in tail
    requires mode == CategoryOnRecentInputMode ==> title != ""
    ensures Classify(Compose(mode, title, tail)) == mode
    ensures mode != RecentInputMode ==> CategoryPart(Compose(mode, title, tail)) == tail
    ensures mode == CategoryOnRecentInputMode ==> TitlePart(Compose(mode, title, tail)) == title
    ensures mode == RecentInputMode ==> TitlePart(Compose(mode, title, tail)) == tail
  {
    match mode
    case CategoryOnRecentInputMode =>
      assert Join([title, tail], Mention) == title + [Mention] + tail;
      ComponentsJoin([title, tail], Mention);
    case CategoryMode =>
      assert Join(["", tail], Mention) == [Mention] + tail;
      ComponentsJoin(["", tail], Mention);
    case RecentInputMode =>
      ComponentsJoin([tail], Mention);
  }

  /** The highlight is -1 or a row of the current list. */
  predicate HighlightInRange(s: State)
  {
    -1 <= s.dropDownIndex < |s.filteredSuggestions|
  }

  /**
   What the field shows: the typed input when nothing is highlighted,
   otherwise the highlighted row, with the mode's title and mention in front.
   */
  function DisplayText(s: State): string
    requires HighlightInRange(s)
  {
    var tail :=
      if s.dropDownIndex == -1 then
        if s.suggestionType == RecentInputMode then s.titleUserInput else s.categoryUserInput
      else s.filteredSuggestions[s.dropDownIndex].title;
    Compose(s.suggestionType, s.titleUserInput, tail)
  }

  /** Arrow keys change only the highlight, the typing flag and the text. */
  predicate SameInputs(s: State, r: State)
  {
    && r.filteredSuggestions == s.filteredSuggestions
    && r.suggestionType == s.suggestionType
    && r.titleUserInput == s.titleUserInput
    && r.categoryUserInput == s.categoryUserInput
    && r.focus == s.focus
    && r.showDropDown == s.showDropDown
  }

  /** The typing flag an arrow key leaves: cleared, except in mixed mode. */
  function ArrowTyping(s: State): bool
  {
    if s.suggestionType == CategoryMode || s.suggestionType == RecentInputMode then false
    else s.isKeyboardTypes
  }

  /** The row below the highlight, wrapping from the last row to -1. */
  function NextIndex(s: State): int
  {
    if s.dropDownIndex < |s.filteredSuggestions| - 1 then s.dropDownIndex + 1 else -1
  }

  /** The row above the highlight, wrapping from -1 to the last row. */
  function PrevIndex(s: State): int
  {
    if s.dropDownIndex > -1 then s.dropDownIndex - 1 else |s.filteredSuggestions| - 1
  }

  /** Highlights row `idx`, leaves the typing flag at `typing`, and shows the highlight in the field. */
  function MoveHighlight(s: State, idx: int, typing: bool): State
    requires -1 <= idx < |s.filteredSuggestions|
  {
    var moved := s.(isKeyboardTypes := typing, dropDownIndex := idx);
    moved.(text := DisplayText(moved))
  }

  /** Down arrow: next row, wrapping from the last row to -1. */
  function Down(s: State): (r: State)
    requires s.dropDownIndex >= -1
    ensures HighlightInRange(r) && SameInputs(s, r)
    ensures s.dropDownIndex < |s.filteredSuggestions| - 1 ==> r.dropDownIndex == s.dropDownIndex + 1
    ensures s.dropDownIndex >= |s.filteredSuggestions| - 1 ==> r.dropDownIndex == -1
    ensures r.isKeyboardTypes == (s.suggestionType == CategoryOnRecentInputMode && s.isKeyboardTypes)
    ensures r.text == DisplayText(r)
  {
    MoveHighlight(s, NextIndex(s), ArrowTyping(s))
  }

  /** Up arrow: previous row, wrapping from -1 to the last row. */
  function Up(s: State): (r: State)
    requires -1 <= s.dropDownIndex <= |s.filteredSuggestions|
    ensures HighlightInRange(r) && SameInputs(s, r)
    ensures s.dropDownIndex > -1 ==> r.dropDownIndex == s.dropDownIndex - 1
    ensures s.dropDownIndex == -1 ==> r.dropDownIndex == |s.filteredSuggestions| - 1
    ensures r.isKeyboardTypes == (s.suggestionType == CategoryOnRecentInputMode && s.isKeyboardTypes)
    ensures r.text == DisplayText(r)
  {
    MoveHighlight(s, PrevIndex(s), ArrowTyping(s))
  }

  /**
   The dropdown lists what the typed input selects: the titles matching the
   title input in recent-input mode, the categories matching the category
   input otherwise. In recent-input mode no title holds a mention, and in
   mixed mode the title input is a non-empty mention-free title.
   */
  predicate Coherent(cfg: Config, s: State)
  {
    && HighlightInRange(s)
    && match s.suggestionType
       case RecentInputMode =>
         && s.filteredSuggestions == FilterByTitle(cfg.originalSuggestion, s.titleUserInput)
         && Mention !in s.titleUserInput
         && (forall k :: 0 <= k < |s.filteredSuggestions| ==> Mention !in s.filteredSuggestions[k].title)
       case CategoryMode =>
         s.filteredSuggestions == FilterCategory(cfg, s.categoryUserInput)
       case CategoryOnRecentInputMode =>
         && s.filteredSuggestions == FilterCategory(cfg, s.categoryUserInput)
         && s.titleUserInput != "" && Mention !in s.titleUserInput
  }

  /** Only the empty query matches an empty title. */
  lemma EmptyTitleMatchesOnlyEmpty(query: string)
    requires Matches("", query)
    ensures query == ""
  {
    assert |LowerStr(query)| == |query|;
  }

  /**
   When the field shows its highlight and the typing flag is clear, the
   `onChange(of: text)` that follows an arrow key finds the list it would
   compute already in place and changes nothing.
   */
  lemma {:induction false} EchoIsQuiet(cfg: Config, d: State)
    requires Coherent(cfg, d) && !d.isKeyboardTypes && d.text == DisplayText(d)
    ensures CanChangeText(cfg, d, d.text)
    ensures OnTextChanged(cfg, d, d.text) == d
  {
    match d.suggestionType
    case RecentInputMode =>
      if d.dropDownIndex != -1 {
        assert Mention !in d.filteredSuggestions[d.dropDownIndex].title;
      }
      assert Classify(d.text) == RecentInputMode;
      if d.text == "" {
        if d.dropDownIndex != -1 {
          var row := d.filteredSuggestions[d.dropDownIndex];
          FilterMembership(cfg.originalSuggestion, d.titleUserInput, row);
          EmptyTitleMatchesOnlyEmpty(d.titleUserInput);
        }
        FilterEmptyQuery(cfg.originalSuggestion);
      }
    case CategoryMode =>
      assert d.text[0] == Mention;
    case CategoryOnRecentInputMode =>
      assert d.text[0] == d.titleUserInput[0];
      assert d.text[|d.titleUserInput|] == Mention;
  }

  /**
   An arrow that clears the typing flag moves the highlight without
   disturbing the typed input, so the text change it causes is quiet.
   */
  lemma ArrowEcho(cfg: Config, s: State, idx: int)
    requires Coherent(cfg, s) && -1 <= idx < |s.filteredSuggestions|
    ensures var m := MoveHighlight(s, idx, false);
      && Coherent(cfg, m)
      && CanChangeText(cfg, m, m.text) && OnTextChanged(cfg, m, m.text) == m
  {
    var m := MoveHighlight(s, idx, false);
    assert SameInputs(s, m) && m.dropDownIndex == idx;
    assert Coherent(cfg, m);
    EchoIsQuiet(cfg, m);
  }

  /** A highlight move only reads the typed input, the mode and the list. */
  lemma MoveBack(s: State, idx: int, typing: bool, back: int, typing2: bool)
    requires -1 <= idx < |s.filteredSuggestions| && -1 <= back < |s.filteredSuggestions|
    ensures MoveHighlight(MoveHighlight(s, idx, typing), back, typing2).dropDownIndex == back
    ensures MoveHighlight(MoveHighlight(s, idx, typing), back, typing2).text
         == DisplayText(s.(dropDownIndex := back))
  {
  }

  /**
   Up undoes Down, text included, with the `onChange(of: text)` between the
   two keys, whenever the arrow clears the typing flag: always in
   recent-input and category mode, and in mixed mode when nothing was typed
   since the last arrow.
   */
  lemma DownThenUp(cfg: Config, s: State)
    requires Coherent(cfg, s) && !ArrowTyping(s)
    ensures CanChangeText(cfg, Down(s), Down(s).text)
    ensures var d := OnTextChanged(cfg, Down(s), Down(s).text);
      && Up(d).dropDownIndex == s.dropDownIndex && Up(d).text == DisplayText(s)
  {
    var d := Down(s);
    assert d == MoveHighlight(s, NextIndex(s), false);
    ArrowEcho(cfg, s, NextIndex(s));
    assert OnTextChanged(cfg, d, d.text) == d;
    assert PrevIndex(d) == s.dropDownIndex && !ArrowTyping(d);
    assert Up(d) == MoveHighlight(d, s.dropDownIndex, false);
    MoveBack(s, NextIndex(s), false, s.dropDownIndex, false);
    assert s.(dropDownIndex := s.dropDownIndex) == s;
  }

  /** Down undoes Up in the same way, under the same condition. */
  lemma UpThenDown(cfg: Config, s: State)
    requires Coherent(cfg, s) && !ArrowTyping(s)
    ensures CanChangeText(cfg, Up(s), Up(s).text)
    ensures var u := OnTextChanged(cfg, Up(s), Up(s).text);
      && Down(u).dropDownIndex == s.dropDownIndex && Down(u).text == DisplayText(s)
  {
    var u := Up(s);
    assert u == MoveHighlight(s, PrevIndex(s), false);
    ArrowEcho(cfg, s, PrevIndex(s));
    assert OnTextChanged(cfg, u, u.text) == u;
    assert NextIndex(u) == s.dropDownIndex && !ArrowTyping(u);
    assert Down(u) == MoveHighlight(u, s.dropDownIndex, false);
    MoveBack(s, PrevIndex(s), false, s.dropDownIndex, false);
    assert s.(dropDownIndex := s.dropDownIndex) == s;
  }


  /**
   From "nothing highlighted", Down, the text change it causes, and Up show
   the typed input again.
   */
  lemma UpAfterDownRestoresInput(cfg: Config, s: State)
    requires Coherent(cfg, s) && !ArrowTyping(s) && s.dropDownIndex == -1
    ensures CanChangeText(cfg, Down(s), Down(s).text)
    ensures var d := OnTextChanged(cfg, Down(s), Down(s).text);
      && Up(d).dropDownIndex == -1
      && Up(d).text
         == Compose(s.suggestionType, s.titleUserInput,
                    if s.suggestionType == RecentInputMode then s.titleUserInput else s.categoryUserInput)
  {
    DownThenUp(cfg, s);
  }

  /**
   As written, in mixed mode after typing, Down keeps the typing flag, so
   the text change it causes records the highlighted row as the category
   query; Up back to "nothing highlighted" then shows that row instead of
   the query that was typed.
   */
  lemma MixedArrowsShowRowNotQuery(cfg: Config, s: State)
    requires s.suggestionType == CategoryOnRecentInputMode && s.isKeyboardTypes
    requires s.dropDownIndex == -1 && |s.filteredSuggestions| >= 1
    requires s.titleUserInput != "" && Mention !in s.titleUserInput
    requires s.filteredSuggestions[0].title != "" && Mention !in s.filteredSuggestions[0].title
    ensures CanChangeText(cfg, Down(s), Down(s).text)
    ensures var d := OnTextChanged(cfg, Down(s), Down(s).text);
      && d.categoryUserInput == s.filteredSuggestions[0].title
      && Up(d).dropDownIndex == -1
      && Up(d).text == Compose(CategoryOnRecentInputMode, s.titleUserInput, s.filteredSuggestions[0].title)
  {
    var d := Down(s);
    ComposeRoundTrip(CategoryOnRecentInputMode, s.titleUserInput, s.filteredSuggestions[0].title);
    assert d.text[0] == s.titleUserInput[0];
  }

  /**
   The typed query "wo" after the title "ab" lists the category "Work";
   Down and Up then leave "ab@Work" in the field, not "ab@wo".
   */
  lemma MixedArrowsExample()
    ensures var cfg := Config([], [Candidate(1, "Work")]);
      var s := State("ab@wo", Some(InputTitleField), true, -1, CategoryOnRecentInputMode,
                     [Candidate(1, "Work")], true, "ab", "wo");
      && CanChangeText(cfg, Down(s), Down(s).text)
      && Up(OnTextChanged(cfg, Down(s), Down(s).text)).text == "ab@Work"
      && DisplayText(s) == "ab@wo"
  {
    var cfg := Config([], [Candidate(1, "Work")]);
    var s := State("ab@wo", Some(InputTitleField), true, -1, CategoryOnRecentInputMode,
                   [Candidate(1, "Work")], true, "ab", "wo");
    assert Mention !in "ab" && Mention !in "Work";
    MixedArrowsShowRowNotQuery(cfg, s);
    assert "ab" + [Mention] + "Work" == "ab@Work";
    assert "ab" + [Mention] + "wo" == "ab@wo";
  }

  /**
   Mixed mode right after typing: the flag is set, the title and category
   inputs are mention-free with a non-empty title, and every listed
   category has a non-empty mention-free title.
   */
  predicate TypedMixed(s: State)
  {
    && s.suggestionType == CategoryOnRecentInputMode && s.isKeyboardTypes
    && HighlightInRange(s)
    && s.titleUserInput != "" && Mention !in s.titleUserInput && Mention !in s.categoryUserInput
    && (forall k :: 0 <= k < |s.filteredSuggestions| ==>
          s.filteredSuggestions[k].title != "" && Mention !in s.filteredSuggestions[k].title)
  }

  /**
   Typing "title@query" with nothing highlighted leaves a `TypedMixed`
   state when every category has a non-empty mention-free title.
   */
  lemma TypingMixedIsTypedMixed(cfg: Config, s: State, newValue: string)
    requires s.isKeyboardTypes && s.dropDownIndex == -1 && Classify(newValue) == CategoryOnRecentInputMode
    requires forall k :: 0 <= k < |cfg.originalCategories| ==>
      cfg.originalCategories[k].title != "" && Mention !in cfg.originalCategories[k].title
    ensures CanChangeText(cfg, s, newValue)
    ensures var r := OnTextChanged(cfg, s, newValue);
      && TypedMixed(r) && r.dropDownIndex == -1
      && r.titleUserInput == TitlePart(newValue) && r.categoryUserInput == CategoryPart(newValue)
  {
    TypingMixedSplitsParts(cfg, s, newValue);
    TitlePartIsPrefixBeforeMention(newValue);
    CategoryPartIsSuffixAfterMention(newValue);
    var r := OnTextChanged(cfg, s, newValue);
    forall k | 0 <= k < |r.filteredSuggestions|
      ensures r.filteredSuggestions[k].title != "" && Mention !in r.filteredSuggestions[k].title
    {
      var x := r.filteredSuggestions[k];
      assert x in r.filteredSuggestions;
      var i :| 0 <= i < |cfg.originalCategories| && cfg.originalCategories[i] == x;
    }
  }

  /**
   As written, a press of the down arrow onto a row in mixed mode after
   typing keeps the flag, so its text change records that row as the
   category query; the highlighted row is not empty, so the list is kept.
   */
  lemma MixedPressEcho(cfg: Config, s: State)
    requires TypedMixed(s) && s.dropDownIndex < |s.filteredSuggestions| - 1
    ensures CanChangeText(cfg, Down(s), Down(s).text)
    ensures var p := OnTextChanged(cfg, Down(s), Down(s).text);
      && TypedMixed(p)
      && p.dropDownIndex == s.dropDownIndex + 1
      && p.filteredSuggestions == s.filteredSuggestions
      && p.titleUserInput == s.titleUserInput
      && p.categoryUserInput == s.filteredSuggestions[s.dropDownIndex + 1].title
  {
    var row := s.filteredSuggestions[s.dropDownIndex + 1].title;
    var d := Down(s);
    assert d.text == Compose(CategoryOnRecentInputMode, s.titleUserInput, row);
    ComposeRoundTrip(CategoryOnRecentInputMode, s.titleUserInput, row);
    assert d.text[0] == s.titleUserInput[0];
  }

  /**
   `k` presses of the down arrow in mixed mode after typing, each followed
   by its text change, starting below the last row.
   */
  function MixedPresses(cfg: Config, s: State, k: nat): (r: State)
    requires TypedMixed(s) && s.dropDownIndex + k < |s.filteredSuggestions|
    ensures TypedMixed(r)
    ensures r.dropDownIndex == s.dropDownIndex + k
    ensures r.filteredSuggestions == s.filteredSuggestions && r.titleUserInput == s.titleUserInput
    decreases k
  {
    if k == 0 then s
    else
      var p := MixedPresses(cfg, s, k - 1);
      MixedPressEcho(cfg, p);
      Press(cfg, p)
  }

  /**
   In mixed mode after typing the press cycle survives the text changes:
   from "nothing highlighted", press k highlights row k-1 with that row
   shown as the category query, and the press after the last row returns
   to "nothing highlighted".
   */
  lemma MixedPressesCycle(cfg: Config, s: State, k: nat)
    requires TypedMixed(s) && s.dropDownIndex == -1 && k <= |s.filteredSuggestions|
    ensures MixedPresses(cfg, s, k).dropDownIndex == k - 1
    ensures k > 0 ==> MixedPresses(cfg, s, k).categoryUserInput == s.filteredSuggestions[k - 1].title
    ensures var last := MixedPresses(cfg, s, |s.filteredSuggestions|);
      && CanChangeText(cfg, Down(last), Down(last).text)
      && Press(cfg, last).dropDownIndex == -1
  {
    if k > 0 {
      var p := MixedPresses(cfg, s, k - 1);
      MixedPressEcho(cfg, p);
    }
    var last := MixedPresses(cfg, s, |s.filteredSuggestions|);
    assert Down(last).dropDownIndex == -1;
    assert Down(last).text == Compose(CategoryOnRecentInputMode, last.titleUserInput, last.categoryUserInput);
    ComposeRoundTrip(CategoryOnRecentInputMode, last.titleUserInput, last.categoryUserInput);
    assert Down(last).text[0] == last.titleUserInput[0];
  }

  /** Down with the typing flag cleared in every mode, mixed mode included. */
  function CorrectedDown(s: State): (r: State)
    requires s.dropDownIndex >= -1
    ensures !r.isKeyboardTypes
    ensures r == Down(s).(isKeyboardTypes := false)
  {
    MoveHighlight(s, NextIndex(s), false)
  }

  /** Up with the typing flag cleared in every mode, mixed mode included. */
  function CorrectedUp(s: State): (r: State)
    requires -1 <= s.dropDownIndex <= |s.filteredSuggestions|
    ensures !r.isKeyboardTypes
    ensures r == Up(s).(isKeyboardTypes := false)
  {
    MoveHighlight(s, PrevIndex(s), false)
  }

  /**
   With the corrected arrows, Up undoes Down in every mode, with the
   `onChange(of: text)` between the keys.
   */
  lemma CorrectedDownThenUp(cfg: Config, s: State)
    requires Coherent(cfg, s)
    ensures CanChangeText(cfg, CorrectedDown(s), CorrectedDown(s).text)
    ensures var d := OnTextChanged(cfg, CorrectedDown(s), CorrectedDown(s).text);
      && CorrectedUp(d).dropDownIndex == s.dropDownIndex && CorrectedUp(d).text == DisplayText(s)
  {
    var d := CorrectedDown(s);
    assert d == MoveHighlight(s, NextIndex(s), false);
    ArrowEcho(cfg, s, NextIndex(s));
    assert OnTextChanged(cfg, d, d.text) == d;
    assert PrevIndex(d) == s.dropDownIndex;
    assert CorrectedUp(d) == MoveHighlight(d, s.dropDownIndex, false);
    MoveBack(s, NextIndex(s), false, s.dropDownIndex, false);
    assert s.(dropDownIndex := s.dropDownIndex) == s;
  }

  /** With the corrected arrows, Down undoes Up in every mode. */
  lemma CorrectedUpThenDown(cfg: Config, s: State)
    requires Coherent(cfg, s)
    ensures CanChangeText(cfg, CorrectedUp(s), CorrectedUp(s).text)
    ensures var u := OnTextChanged(cfg, CorrectedUp(s), CorrectedUp(s).text);
      && CorrectedDown(u).dropDownIndex == s.dropDownIndex && CorrectedDown(u).text == DisplayText(s)
  {
    var u := CorrectedUp(s);
    assert u == MoveHighlight(s, PrevIndex(s), false);
    ArrowEcho(cfg, s, PrevIndex(s));
    assert OnTextChanged(cfg, u, u.text) == u;
    assert NextIndex(u) == s.dropDownIndex;
    assert CorrectedDown(u) == MoveHighlight(u, s.dropDownIndex, false);
    MoveBack(s, PrevIndex(s), false, s.dropDownIndex, false);
    assert s.(dropDownIndex := s.dropDownIndex) == s;
  }


  /** `k` presses of the down arrow. */
  function DownTimes(s: State, k: nat): (r: State)
    requires s.dropDownIndex >= -1
    ensures r.dropDownIndex >= -1 && r.filteredSuggestions == s.filteredSuggestions
  {
    if k == 0 then s else Down(DownTimes(s, k - 1))
  }

  /**
   From "nothing highlighted", the down arrow walks the rows in order and
   the press after the last row returns to "nothing highlighted".
   */
  lemma {:induction false} DownCycles(s: State, k: nat)
    requires s.dropDownIndex == -1 && k <= |s.filteredSuggestions| + 1
    ensures DownTimes(s, k).dropDownIndex == if k == |s.filteredSuggestions| + 1 then -1 else k - 1
  {
    if k > 0 {
      DownCycles(s, k - 1);
    }
  }

  /** One press of the down arrow followed by the `onChange(of: text)` it causes. */
  function Press(cfg: Config, s: State): State
    requires s.dropDownIndex >= -1 && CanChangeText(cfg, Down(s), Down(s).text)
  {
    OnTextChanged(cfg, Down(s), Down(s).text)
  }

  /**
   `k` presses of the down arrow, each followed by its text change. On a
   list that matches the typed input, with the typing flag cleared by the
   arrows, every text change is quiet, so the presses are the bare handlers.
   */
  function Presses(cfg: Config, s: State, k: nat): (r: State)
    requires Coherent(cfg, s) && !ArrowTyping(s)
    ensures Coherent(cfg, r) && !ArrowTyping(r)
    ensures r == DownTimes(s, k)
    decreases k
  {
    if k == 0 then s
    else
      var p := Presses(cfg, s, k - 1);
      ArrowEcho(cfg, p, NextIndex(p));
      Press(cfg, p)
  }

  /**
   From "nothing highlighted", with the text change after every press, the
   down arrow walks the rows in order and the press after the last row
   returns to "nothing highlighted".
   */
  lemma PressesCycle(cfg: Config, s: State, k: nat)
    requires Coherent(cfg, s) && !ArrowTyping(s)
    requires s.dropDownIndex == -1 && k <= |s.filteredSuggestions| + 1
    ensures Presses(cfg, s, k).dropDownIndex == if k == |s.filteredSuggestions| + 1 then -1 else k - 1
  {
    DownCycles(s, k);
  }

  /** Return may read the highlighted row only in the category modes, and there it must exist. */
  predicate CanReturn(s: State)
  {
    s.suggestionType != RecentInputMode ==> 0 <= s.dropDownIndex < |s.filteredSuggestions|
  }

  /** Return: save the text as a title, or pick the highlighted category. */
  function Return(s: State): (r: Step<State>)
    requires CanReturn(s)
    ensures r.next.dropDownIndex == -1 && r.next.categoryUserInput == ""
    ensures s.suggestionType == RecentInputMode
        ==> r.emitted == [SaveTitle(s.text)] && r.next.text == "" && r.next.titleUserInput == ""
    ensures s.suggestionType != RecentInputMode
        ==> r.emitted == [SelectCategory(s.filteredSuggestions[s.dropDownIndex].id)]
    ensures s.suggestionType == CategoryOnRecentInputMode
        ==> r.next.text == s.titleUserInput && r.next.titleUserInput == s.titleUserInput
            && r.next.suggestionType == RecentInputMode
    ensures s.suggestionType == CategoryMode
        ==> r.next.text == "" && r.next.titleUserInput == "" && r.next.suggestionType == CategoryMode
    ensures r.next.filteredSuggestions == s.filteredSuggestions
    ensures s.suggestionType == RecentInputMode ==> r.next.suggestionType == RecentInputMode
    ensures r.next.isKeyboardTypes == s.isKeyboardTypes
    ensures r.next.focus == s.focus && r.next.showDropDown == s.showDropDown
  {
    match s.suggestionType
    case CategoryOnRecentInputMode =>
      Step(s.(text := s.titleUserInput, categoryUserInput := "", dropDownIndex := -1,
              suggestionType := RecentInputMode),
           [SelectCategory(s.filteredSuggestions[s.dropDownIndex].id)])
    case CategoryMode =>
      Step(s.(text := "", titleUserInput := "", categoryUserInput := "", dropDownIndex := -1),
           [SelectCategory(s.filteredSuggestions[s.dropDownIndex].id)])
    case RecentInputMode =>
      Step(s.(text := "", titleUserInput := "", categoryUserInput := "", dropDownIndex := -1),
           [SaveTitle(s.text)])
  }

  /**
   Picking a category from a mixed text after arrowing to it leaves the
   field holding exactly the title part of the text that was shown.
   */
  lemma MixedCommitKeepsTitlePart(s: State)
    requires s.suggestionType == CategoryOnRecentInputMode && s.titleUserInput != ""
    requires Mention !in s.titleUserInput
    requires s.dropDownIndex >= -1 && s.dropDownIndex < |s.filteredSuggestions| - 1
    requires Mention !in s.filteredSuggestions[s.dropDownIndex + 1].title
    ensures CanReturn(Down(s))
    ensures Return(Down(s)).next.text == TitlePart(Down(s).text)
    ensures Return(Down(s)).emitted == [SelectCategory(s.filteredSuggestions[s.dropDownIndex + 1].id)]
  {
    var d := Down(s);
    ComposeRoundTrip(CategoryOnRecentInputMode, s.titleUserInput, s.filteredSuggestions[d.dropDownIndex].title);
  }

  /** Escape hides the dropdown and changes nothing else. */
  function Escape(s: State): (r: State)
    ensures !r.showDropDown
    ensures r.(showDropDown := s.showDropDown) == s
  {
    s.(showDropDown := false)
  }

  /** `onChange(of: focusState)`: the dropdown shows exactly while the title field is focused. */
  function FocusChanged(s: State, focus: Option<FocusType>): (r: State)
    ensures r.focus == focus
    ensures focus != s.focus ==> (r.showDropDown <==> focus == Some(InputTitleField))
    ensures r.(focus := s.focus, showDropDown := s.showDropDown) == s
  {
    if focus == s.focus then s
    else s.(focus := focus, showDropDown := focus == Some(InputTitleField))
  }

  /** The field text after picking a category by click: the title part, followed by one space. */
  function KeepTitle(text: string): (r: string)
    ensures Mention !in r
    ensures r == "" || r[|r| - 1] == ' '
    ensures r == TitlePart(text) || r == TitlePart(text) + " "
    ensures r == "" <==> TitlePart(text) == ""
    ensures TitlePart(text) != "" && TitlePart(text)[|TitlePart(text)| - 1] == ' ' ==> r == TitlePart(text)
  {
    var title := TitlePart(text);
    if |title| > 0 then
      if title[|title| - 1] != ' ' then title + " " else title
    else ""
  }

  /** A click commit reads the highlighted row, except in mixed mode where it does nothing. */
  predicate CanSelectItem(s: State)
  {
    s.suggestionType != CategoryOnRecentInputMode ==> 0 <= s.dropDownIndex < |s.filteredSuggestions|
  }

  /** `itemDidSelect`: commit the highlighted row. */
  function ItemDidSelect(s: State): (r: Step<State>)
    requires CanSelectItem(s)
    ensures s.suggestionType == RecentInputMode
        ==> && r.emitted == [SaveTitle(s.filteredSuggestions[s.dropDownIndex].title)]
            && r.next == s.(text := "", showDropDown := false, focus := Some(SessionList), dropDownIndex := -1)
    ensures s.suggestionType == CategoryMode
        ==> && r.emitted == [SelectCategory(s.filteredSuggestions[s.dropDownIndex].id)]
            && r.next == s.(text := KeepTitle(s.text), suggestionType := RecentInputMode,
                            focus := Some(InputTitleField), dropDownIndex := -1)
    ensures s.suggestionType == CategoryOnRecentInputMode ==> r == Step(s, [])
  {
    match s.suggestionType
    case RecentInputMode =>
      Step(s.(text := "", showDropDown := false, focus := Some(SessionList), dropDownIndex := -1),
           [SaveTitle(s.filteredSuggestions[s.dropDownIndex].title)])
    case CategoryMode =>
      Step(s.(text := KeepTitle(s.text), suggestionType := RecentInputMode,
              focus := Some(InputTitleField), dropDownIndex := -1),
           [SelectCategory(s.filteredSuggestions[s.dropDownIndex].id)])
    case CategoryOnRecentInputMode =>
      Step(s, [])
  }

  /** A tap on row `index`: highlight it, then commit. */
  function TapItem(s: State, index: int): (r: Step<State>)
    requires 0 <= index < |s.filteredSuggestions|
    ensures s.suggestionType == RecentInputMode
        ==> r.emitted == [SaveTitle(s.filteredSuggestions[index].title)] && r.next.text == ""
    ensures s.suggestionType == CategoryMode
        ==> r.emitted == [SelectCategory(s.filteredSuggestions[index].id)]
    ensures s.suggestionType == CategoryOnRecentInputMode
        ==> r.emitted == [] && r.next.dropDownIndex == index
  {
    ItemDidSelect(s.(dropDownIndex := index))
  }
}

=== FILE: screen.dfy ===
/**
 How `HomeView.swift` wires its children: the title field's `titleDidSave`
 goes to `saveSession`, and both the field's and the selector's
 `categoryDidSelect` go to `categoryDidSelect`. The field itself never
 refuses a commit; the home screen does.
 */
module Screen {
  import opened Items
  import Home
  import MentionSearch

  /** Fresh ids for the session and the suggestion a save may create. */
  predicate FreshIds(sessionId: int, suggestionId: int)
  {
    && Home.MinFreshId <= sessionId <= Home.MaxFreshId
    && Home.MinFreshId <= suggestionId <= Home.MaxFreshId
  }

  /** Hands the callbacks a child fired, in order, to the home screen. */
  function Deliver(h: Home.State, actions: seq<Action>, sessionId: int, suggestionId: int): (r: Home.State)
    requires FreshIds(sessionId, suggestionId)
    ensures r.categories == h.categories
    ensures |r.sessions| >= |h.sessions|
    decreases |actions|
  {
    if |actions| == 0 then h
    else
      var next :=
        match actions[0]
        case SaveTitle(title) => Home.SaveSession(h, title, sessionId, suggestionId)
        case SelectCategory(id) => Home.CategoryDidSelect(h, id)
        case SelectSuggestion(_) => h
        case DidSave => h;
      Deliver(next, actions[1..], sessionId, suggestionId)
  }

  /** Return on an empty title field creates no session and leaves the suggestions alone. */
  lemma EmptyCommitSavesNothing(h: Home.State, s: MentionSearch.State, sessionId: int, suggestionId: int)
    requires FreshIds(sessionId, suggestionId)
    requires s.suggestionType == MentionSearch.RecentInputMode && s.text == ""
    ensures Deliver(h, MentionSearch.Return(s).emitted, sessionId, suggestionId).sessions == h.sessions
    ensures Deliver(h, MentionSearch.Return(s).emitted, sessionId, suggestionId).suggestions == h.suggestions
  {
    assert MentionSearch.Return(s).emitted[1..] == [];
  }

  /** Return on a typed title, with a category picked, adds that title as an open session on top. */
  lemma CommitSavesTypedTitle(h: Home.State, s: MentionSearch.State, sessionId: int, suggestionId: int)
    requires FreshIds(sessionId, suggestionId)
    requires s.suggestionType == MentionSearch.RecentInputMode && Home.CanSave(h, s.text)
    ensures var r := Deliver(h, MentionSearch.Return(s).emitted, sessionId, suggestionId);
      && r.sessions == [Session(sessionId, s.text, h.selectedCategory.id, false)] + h.sessions
      && r.sessionIndex == 0
  {
    assert MentionSearch.Return(s).emitted[1..] == [];
  }

  /** Return on a highlighted category row picks that category on the home screen. */
  lemma MentionCommitPicksCategory(h: Home.State, s: MentionSearch.State, sessionId: int, suggestionId: int)
    requires FreshIds(sessionId, suggestionId)
    requires s.suggestionType != MentionSearch.RecentInputMode
    requires 0 <= s.dropDownIndex < |s.filteredSuggestions| && s.filteredSuggestions[s.dropDownIndex] in h.categories
    ensures var r := Deliver(h, MentionSearch.Return(s).emitted, sessionId, suggestionId);
      && r.selectedCategory.id == s.filteredSuggestions[s.dropDownIndex].id
      && r.sessions == h.sessions
  {
    var c := s.filteredSuggestions[s.dropDownIndex];
    var j :| 0 <= j < |h.categories| && h.categories[j] == c;
    assert MentionSearch.Return(s).emitted[1..] == [];
  }
}

=== FILE: text.dfy ===
/**
 String helpers shared by the search views: lower-casing, substring search,
 and the two ways the views cut a text at the mention character — keeping
 empty pieces (Foundation's `components(separatedBy:)`) and dropping them
 (`split(separator:)`).

 Lower-casing is ASCII-only: 'A'..'Z' map to 'a'..'z' and every other
 character is left alone.
 */
module Text {

  /** The character that starts a category mention in the title field. */
  const Mention: char := '@'

  /** ASCII lower-case of one character. */
  function Lower(c: char): (r: char)
    ensures 'a' <= r <= 'z' || !('A' <= r <= 'Z')
    ensures !('A' <= c <= 'Z') ==> r == c
  {
    if 'A' <= c <= 'Z' then (c as int + 32) as char else c
  }

  /** Character-wise lower-case of a string. */
  function LowerStr(s: string): (r: string)
    ensures |r| == |s|
    ensures forall i :: 0 <= i < |s| ==> r[i] == Lower(s[i])
  {
    seq(|s|, i requires 0 <= i < |s| => Lower(s[i]))
  }

  lemma LowerStrIdempotent(s: string)
    ensures LowerStr(LowerStr(s)) == LowerStr(s)
  {
    var l := LowerStr(s);
    forall i | 0 <= i < |l|
      ensures Lower(l[i]) == l[i]
    {
    }
  }

  predicate IsPrefix(p: string, s: string)
  {
    |p| <= |s| && s[..|p|] == p
  }

  /** `hay` contains `needle` as a contiguous piece, searched front to back. */
  predicate Contains(hay: string, needle: string)
    decreases |hay|
  {
    IsPrefix(needle, hay) || (|hay| > 0 && Contains(hay[1..], needle))
  }

  /** Reference definition of a substring occurrence at position `i`. */
  ghost predicate OccursAt(hay: string, needle: string, i: int)
  {
    0 <= i && i + |needle| <= |hay| && hay[i..i + |needle|] == needle
  }

  /** The recursive search agrees with "occurs at some position". */
  lemma {:induction false} ContainsIffOccurs(hay: string, needle: string)
    ensures Contains(hay, needle) <==> exists i :: OccursAt(hay, needle, i)
    decreases |hay|
  {
    if IsPrefix(needle, hay) {
      assert OccursAt(hay, needle, 0);
    } else if |hay| > 0 {
      ContainsIffOccurs(hay[1..], needle);
      if Contains(hay[1..], needle) {
        var i :| OccursAt(hay[1..], needle, i);
        assert hay[1..][i..i + |needle|] == hay[i + 1..i + 1 + |needle|];
        assert OccursAt(hay, needle, i + 1);
      }
      forall i | OccursAt(hay, needle, i)
        ensures Contains(hay, needle)
      {
        if i > 0 {
          assert hay[1..][i - 1..i - 1 + |needle|] == hay[i..i + |needle|];
          assert OccursAt(hay[1..], needle, i - 1);
        }
      }
    }
  }

  /** `a` can be obtained from `b` by deleting entries, keeping the order of the rest. */
  ghost predicate IsSubsequence<T>(a: seq<T>, b: seq<T>)
    decreases |b|
  {
    |a| == 0
    || (|b| > 0 && ((a[0] == b[0] && IsSubsequence(a[1..], b[1..])) || IsSubsequence(a, b[1..])))
  }

  /**
   The text with every `c` removed (Swift's `filter { $0 != c }`): every
   other character is kept, as often as it occurs and in its order.
   */
  function RemoveAll(s: string, c: char): (r: string)
    ensures c !in r
    ensures multiset(r) == multiset(s)[c := 0]
    ensures IsSubsequence(r, s)
    ensures c !in s ==> r == s
    decreases |s|
  {
    if |s| == 0 then ""
    else
      var rest := RemoveAll(s[1..], c);
      assert s == [s[0]] + s[1..];
      if s[0] == c then rest
      else
        assert ([s[0]] + rest)[1..] == rest;
        [s[0]] + rest
  }

  /**
   The pieces of `s` between occurrences of `sep`, empty pieces kept.
   There is always at least one piece, and one more piece than there
   are separators.
   */
  function Components(s: string, sep: char): (r: seq<string>)
    ensures |r| >= 1
    ensures forall k :: 0 <= k < |r| ==> sep !in r[k]
    ensures |r| == 1 <==> sep !in s
    ensures r[0] == "" <==> (|s| == 0 || s[0] == sep)
    decreases |s|
  {
    if |s| == 0 then [""]
    else
      var rest := Components(s[1..], sep);
      assert s == [s[0]] + s[1..];
      if s[0] == sep then [""] + rest
      else [[s[0]] + rest[0]] + rest[1..]
  }

  /** Puts pieces back together with `sep` between neighbours. */
  function Join(parts: seq<string>, sep: char): string
  {
    if |parts| == 0 then ""
    else if |parts| == 1 then parts[0]
    else parts[0] + [sep] + Join(parts[1..], sep)
  }

  /** Cutting and re-joining gives the text back. */
  lemma {:induction false} JoinComponents(s: string, sep: char)
    ensures Join(Components(s, sep), sep) == s
    decreases |s|
  {
    if |s| > 0 {
      var rest := Components(s[1..], sep);
      JoinComponents(s[1..], sep);
      if s[0] == sep {
        assert Components(s, sep) == [""] + rest;
      } else {
        var r := Components(s, sep);
        assert r == [[s[0]] + rest[0]] + rest[1..];
        if |rest| == 1 {
          assert r == [[s[0]] + rest[0]];
        } else {
          assert r[1..] == rest[1..];
          assert Join(rest, sep) == rest[0] + [sep] + Join(rest[1..], sep);
          assert Join(r, sep) == ([s[0]] + rest[0]) + [sep] + Join(rest[1..], sep);
        }
      }
    }
  }

  /** A separator-free head stays glued to the first piece of what follows. */
  lemma {:induction false} ComponentsOfSepFreeHead(a: string, b: string, sep: char)
    requires sep !in a
    ensures Components(a + b, sep)
         == [a + Components(b, sep)[0]] + Components(b, sep)[1..]
    decreases |a|
  {
    if |a| > 0 {
      assert (a + b)[1..] == a[1..] + b;
      assert (a + b)[0] == a[0];
      ComponentsOfSepFreeHead(a[1..], b, sep);
      assert [a[0]] + (a[1..] + Components(b, sep)[0]) == a + Components(b, sep)[0];
    } else {
      assert a + b == b;
      var cb := Components(b, sep);
      assert a + cb[0] == cb[0];
      assert cb == [cb[0]] + cb[1..];
    }
  }

  /** Joining separator-free pieces and cutting again gives the pieces back. */
  lemma {:induction false} ComponentsJoin(parts: seq<string>, sep: char)
    requires |parts| >= 1
    requires forall k :: 0 <= k < |parts| ==> sep !in parts[k]
    ensures Components(Join(parts, sep), sep) == parts
    decreases |parts|
  {
    if |parts| == 1 {
      ComponentsOfSepFreeHead(parts[0], "", sep);
      assert parts[0] + "" == parts[0];
    } else {
      var tail := Join(parts[1..], sep);
      ComponentsJoin(parts[1..], sep);
      assert Join(parts, sep) == parts[0] + ([sep] + tail);
      ComponentsOfSepFreeHead(parts[0], [sep] + tail, sep);
      assert ([sep] + tail)[1..] == tail;
      assert Components([sep] + tail, sep) == [""] + Components(tail, sep);
      assert parts[0] + "" == parts[0];
    }
  }

  /** The first piece is the text before the first `sep` (all of it if none). */
  lemma {:induction false} FirstComponent(s: string, sep: char)
    ensures IsPrefix(Components(s, sep)[0], s)
    ensures |Components(s, sep)[0]| < |s| ==> s[|Components(s, sep)[0]|] == sep
    decreases |s|
  {
    if |s| > 0 && s[0] != sep {
      FirstComponent(s[1..], sep);
    }
  }

  /** The last piece is the text after the last `sep` (all of it if none). */
  lemma {:induction false} LastComponent(s: string, sep: char)
    ensures var last := Components(s, sep)[|Components(s, sep)| - 1];
      |last| <= |s| && s[|s| - |last|..] == last
      && (|last| < |s| ==> s[|s| - |last| - 1] == sep)
    decreases |s|
  {
    if |s| > 0 {
      LastComponent(s[1..], sep);
    }
  }

  /** Concatenation of all pieces, with nothing in between. */
  function Concat(parts: seq<string>): string
  {
    if |parts| == 0 then "" else parts[0] + Concat(parts[1..])
  }

  /**
   The pieces that are not empty, in order: every non-empty piece is kept as
   often as it occurs, every empty one is dropped, and nothing is reordered.
   */
  function NonEmpty(parts: seq<string>): (r: seq<string>)
    ensures IsSubsequence(r, parts)
    ensures forall x :: multiset(r)[x] == if x == "" then 0 else multiset(parts)[x]
    ensures forall k :: 0 <= k < |r| ==> r[k] != "" && r[k] in parts
    ensures |r| <= |parts|
  {
    if |parts| == 0 then []
    else
      var rest := NonEmpty(parts[1..]);
      assert parts == [parts[0]] + parts[1..];
      if parts[0] == "" then rest
      else
        assert ([parts[0]] + rest)[1..] == rest;
        [parts[0]] + rest
  }

  /**
   Swift's `split(separator:)`: the pieces between separators, that is the
   pieces `components(separatedBy:)` gives, with the empty ones dropped and
   the rest kept in order.
   */
  function Split(s: string, sep: char): (r: seq<string>)
    ensures IsSubsequence(r, Components(s, sep))
    ensures forall x :: multiset(r)[x] == if x == "" then 0 else multiset(Components(s, sep))[x]
    ensures forall k :: 0 <= k < |r| ==> r[k] != "" && sep !in r[k]
  {
    NonEmpty(Components(s, sep))
  }

  lemma {:induction false} ConcatNonEmpty(parts: seq<string>)
    ensures Concat(NonEmpty(parts)) == Concat(parts)
  {
    if |parts| > 0 {
      ConcatNonEmpty(parts[1..]);
      if parts[0] != "" {
        assert NonEmpty(parts)[1..] == NonEmpty(parts[1..]);
      }
    }
  }

  lemma {:induction false} ConcatComponents(s: string, sep: char)
    ensures Concat(Components(s, sep)) == RemoveAll(s, sep)
    decreases |s|
  {
    if |s| > 0 {
      var rest := Components(s[1..], sep);
      ConcatComponents(s[1..], sep);
      if s[0] == sep {
        assert Components(s, sep)[1..] == rest;
      } else {
        var r := Components(s, sep);
        assert r[1..] == rest[1..];
        assert Concat(rest) == rest[0] + Concat(rest[1..]);
        assert Concat(r) == ([s[0]] + rest[0]) + Concat(rest[1..]);
      }
    }
  }

  /** Gluing the non-empty pieces back together loses exactly the separators. */
  lemma SplitConcat(s: string, sep: char)
    ensures Concat(Split(s, sep)) == RemoveAll(s, sep)
  {
    ConcatNonEmpty(Components(s, sep));
    ConcatComponents(s, sep);
  }
}
